=== FILE: README.md ===
# Random colour picker: history, sampler, view model and ad capping in Dafny

This project models four pieces of logic from an Android colour-picker app.

- **Recent-colour history** (`ColorRepository`). Packed colour codes are kept under the
  preferences key `recent_colors` as one comma-joined string of decimal `Long`s, newest first.
  Decoding treats a missing or empty value as the empty list and drops tokens that do not parse.
  `addRecentColor` pushes a colour to the front, removes repeats, keeps five and writes back.
- **Centre-pixel sampler** (`extractCenterColor`). It reads the centre luma byte and the 2:1
  subsampled chroma bytes of a YUV_420_888 frame, masks them unsigned, biases chroma by -128,
  applies a fixed linear transform, then truncates and clamps each channel to [0, 255].
- **UI state** (`MainViewModel` / `ColorUiState`). Every public operation is a record update.
  Some also launch repository calls, which are returned here as requests.
- **Interstitial capping and retry** (`AdMobManager`). The ads SDK becomes events (load failed,
  load succeeded, retry due, camera exit, showed, dismissed, failed to show). What is left is a
  counter machine: an in-flight flag, a retry attempt capped at 3 with delay 1000·2^attempt ms,
  and a usage count that shows a cached ad once it reaches 3 or more and then restarts.

Files: `wrappers.dfy` (nullable values and thrown exceptions), `text.dfy` (Kotlin `split`,
`joinToString`, decimal `toString`, `toLongOrNull`), `color_repository.dfy`, `colors.dfy`
(colour triple, ARGB packing, `#RRGGBB` and `RGB(r, g, b)` labels), `center_sampler.dfy`,
`main_view_model.dfy`, `ad_mob_manager.dfy`.

Modelling choices:
- The preferences store is a `map<string, string>`. Each `edit` block is a function from the old map
  to the new one.
- `ByteBuffer.get(index)` throws when the index is outside the buffer, and `extractCenterColor`
  never checks its offsets first. The model returns `Failure(IndexOutOfBounds(plane, index))`
  exactly when a computed offset is outside its plane. That iff is the bounds condition the code
  leaves to its callers.
- Offsets use Kotlin `Int` arithmetic: products and sums wrap modulo 2^32, and `/ 2` rounds toward
  zero. `CentreOffsets` shows this is the plain formula when nothing overflows.
- The chroma offset uses the U plane's row and pixel strides for both the U and the V read, as the
  code does: the V plane is read at the U plane's offset, whatever its own strides are.
- The coefficients 1.370705, 0.337633, 0.698001 and 1.732446 are exact millionths.
  `Double.toInt()` is truncation toward zero. `YuvToRgbIsExact` proves that the integer form equals
  truncating the exact real-valued formula.
- Colours are (red, green, blue) triples of 8-bit channels. The packed code is `toArgb()` widened to
  `Long`: 0xFFRRGGBB read as a signed 32-bit value.
- The labels are checked against two readers written for this model. They accept only the texts
  the app writes: upper-case hex digits, and decimal channels with no sign and no leading zeros.
  So a label reads back as a colour exactly when it is that colour's label.
- The three `Random.nextInt(256)` draws of `generateNewColor` are inputs.

## Model

| member | source | states |
|---|---|---|
| Text.ParseLong | app/src/main/java/com/japygo/study/randomcolorpicker/data/ColorRepository.kt:23 | `toLongOrNull` accepts exactly an optional `-` or `+` followed by one or more decimal digits whose value fits a `Long`, and returns that value; an accepted token holds no comma |
| Text.ParseLongOfDecimal | app/src/main/java/com/japygo/study/randomcolorpicker/data/ColorRepository.kt:23 | `toLongOrNull` reads every `Long`'s decimal rendering back to that `Long`, negative ones included |
| Text.DigitsValueOfDecimal | app/src/main/java/com/japygo/study/randomcolorpicker/data/ColorRepository.kt:29 | the decimal digits written for a number read back as that number |
| Text.DecimalOfDigits | app/src/main/java/com/japygo/study/randomcolorpicker/MainViewModel.kt:93 | digits without a sign or a leading zero are exactly what `toString()` writes for their value |
| Text.SplitConcat | app/src/main/java/com/japygo/study/randomcolorpicker/data/ColorRepository.kt:23 | splitting `a,b` gives the pieces of `a` followed by the pieces of `b` |
| Text.SplitJoin | app/src/main/java/com/japygo/study/randomcolorpicker/data/ColorRepository.kt:23 | `split(",")` undoes `joinToString(",")` on a non-empty list of comma-free pieces |
| Text.JoinSplit | app/src/main/java/com/japygo/study/randomcolorpicker/data/ColorRepository.kt:23 | `joinToString(",")` undoes `split(",")`: no character is lost or added |
| Text.Split | app/src/main/java/com/japygo/study/randomcolorpicker/data/ColorRepository.kt:23 | `split(",")` gives at least one piece and no piece holds the separator; `SplitConcat`, `SplitJoin` and `JoinSplit` pin it down exactly |
| Text.Join | app/src/main/java/com/japygo/study/randomcolorpicker/data/ColorRepository.kt:29 | `joinToString(",")`; `SplitJoin` and `JoinSplit` prove it the inverse of `split` |
| Text.IntToDecimal | app/src/main/java/com/japygo/study/randomcolorpicker/data/ColorRepository.kt:29 | `Long.toString()` is non-empty and comma-free; a non-negative value is written as its canonical digits (no sign, no leading zero) whose value is the number, a negative one as `-` followed by the canonical digits of its magnitude; `ParseLongOfDecimal` proves `toLongOrNull` reads it back |
| ColorRepository.DecodeColors | app/src/main/java/com/japygo/study/randomcolorpicker/data/ColorRepository.kt:17-25 | a missing or empty stored value decodes to the empty list |
| ColorRepository.ParseTokensAppend | app/src/main/java/com/japygo/study/randomcolorpicker/data/ColorRepository.kt:23 | decoding is order-preserving: the tokens of a concatenation decode to the concatenation of the decodings |
| ColorRepository.ParseTokensMembers | app/src/main/java/com/japygo/study/randomcolorpicker/data/ColorRepository.kt:23 | a value is in the decoded list exactly when some token parses to it |
| ColorRepository.ParseTokens | app/src/main/java/com/japygo/study/randomcolorpicker/data/ColorRepository.kt:23 | `mapNotNull { it.toLongOrNull() }`: never more values than tokens; `ParseTokensMembers` and `ParseTokensAppend` state which values survive and in what order |
| ColorRepository.RecentColors | app/src/main/java/com/japygo/study/randomcolorpicker/data/ColorRepository.kt:17-25 | a missing key and an empty stored text both read as the empty list; `DecodeEncode` shows that a saved list reads back unchanged |
| ColorRepository.DecodeAppendToken | app/src/main/java/com/japygo/study/randomcolorpicker/data/ColorRepository.kt:19-23 | one more comma-separated token adds its value to the end of the decoded list when it parses, and nothing when it does not |
| ColorRepository.EncodeColors | app/src/main/java/com/japygo/study/randomcolorpicker/data/ColorRepository.kt:29 | the encoding is empty exactly for the empty list |
| ColorRepository.DecodeEncode | app/src/main/java/com/japygo/study/randomcolorpicker/data/ColorRepository.kt:17-31 | round trip: decoding the comma-joined encoding of any list of `Long`s gives that list, the empty list included |
| ColorRepository.DistinctFrom | app/src/main/java/com/japygo/study/randomcolorpicker/data/ColorRepository.kt:43 | `distinct()` keeps each element not already seen exactly once, nothing else, ordered by where it first occurs in the input |
| ColorRepository.DistinctOfDistinct | app/src/main/java/com/japygo/study/randomcolorpicker/data/ColorRepository.kt:43 | a list without repeats is its own `distinct()` |
| ColorRepository.Take | app/src/main/java/com/japygo/study/randomcolorpicker/data/ColorRepository.kt:43 | `take(5)` is the prefix of length 5, or the whole list when shorter |
| ColorRepository.MoveToFront | app/src/main/java/com/japygo/study/randomcolorpicker/data/ColorRepository.kt:43 | putting a colour in front and de-duplicating gives that colour, then the earlier distinct entries without it, in their old order |
| ColorRepository.InsertRecent | app/src/main/java/com/japygo/study/randomcolorpicker/data/ColorRepository.kt:43 | the new history starts with the colour, has 1 to 5 entries and no repeats, holds nothing but the colour and old entries, and continues with the old distinct entries minus the colour |
| ColorRepository.ReinsertExample | app/src/main/java/com/japygo/study/randomcolorpicker/data/ColorRepository.kt:43 | inserting A into [B, A] gives [A, B] |
| ColorRepository.SaveRecentColors | app/src/main/java/com/japygo/study/randomcolorpicker/data/ColorRepository.kt:27-31 | the stored text is exactly the decimal codes joined by `,`; it reads back as exactly the list given, without de-duplication or truncation, and no other key changes |
| ColorRepository.AddRecentColor | app/src/main/java/com/japygo/study/randomcolorpicker/data/ColorRepository.kt:33-46 | after the update the stored list starts with the colour, has at most 5 entries and no repeats, even when the old value had repeats; the stored text is the decimal codes of that list joined by `,`; no other key changes |
| ColorRepository.AddFreshColors | app/src/main/java/com/japygo/study/randomcolorpicker/data/ColorRepository.kt:33-46 | adding colours that are new to the history and to each other leaves the newest five: the added ones latest first, then the old entries |
| ColorRepository.StoreFollowsPolicy | app/src/main/java/com/japygo/study/randomcolorpicker/data/ColorRepository.kt:33-46 | adding colours to the store one call at a time leaves the stored history that inserting them, in order, into the decoded history gives |
| ColorRepository.InsertFresh | app/src/main/java/com/japygo/study/randomcolorpicker/data/ColorRepository.kt:43 | inserting colours new to the history and to each other yields the first five of the inserted colours, latest first, followed by the old history |
| ColorRepository.SixInsertions | app/src/main/java/com/japygo/study/randomcolorpicker/data/ColorRepository.kt:43 | adding six distinct colours A to F to an empty store leaves [F, E, D, C, B] |
| Colors.ToArgb | app/src/main/java/com/japygo/study/randomcolorpicker/MainViewModel.kt:109-113 | the packed code of an opaque colour is negative, and its low 32 bits are 0xFF, red, green, blue |
| Colors.FromArgbToArgb | app/src/main/java/com/japygo/study/randomcolorpicker/MainViewModel.kt:31-36 | unpacking a stored code with `Color(code.toInt())` gives back the packed colour |
| Colors.FromArgb | app/src/main/java/com/japygo/study/randomcolorpicker/MainViewModel.kt:33 | `Color(it.toInt())` keeps the low 24 bits as red, green and blue; `FromArgbToArgb` proves it undoes `ToArgb` |
| Colors.ToArgbInjective | app/src/main/java/com/japygo/study/randomcolorpicker/MainViewModel.kt:109-113 | two colours have the same code exactly when they are the same colour |
| Colors.HexPair | app/src/main/java/com/japygo/study/randomcolorpicker/MainViewModel.kt:86-91 | `%02X` of a channel is two upper-case hex digits whose value is the channel |
| Colors.HexCode | app/src/main/java/com/japygo/study/randomcolorpicker/MainViewModel.kt:86-91 | the hex label is `#` followed by six upper-case hex digits, 7 characters in all |
| Colors.RgbCode | app/src/main/java/com/japygo/study/randomcolorpicker/MainViewModel.kt:92-93 | the `RGB(r, g, b)` label; `ParseRgbCodeOfRgbCode` and `RgbCodeOfParseRgbCode` prove it is the one text that reads as the colour |
| Colors.ParseHexCodeOfHexCode | app/src/main/java/com/japygo/study/randomcolorpicker/MainViewModel.kt:86-91 | the digit pairs of the hex label are red, green and blue, in that order |
| Colors.HexCodeOfParseHexCode | app/src/main/java/com/japygo/study/randomcolorpicker/MainViewModel.kt:86-91 | every well-formed `#RRGGBB` label is the label of the colour it reads as |
| Colors.ParseRgbCodeOfRgbCode | app/src/main/java/com/japygo/study/randomcolorpicker/MainViewModel.kt:92-93 | the `RGB(r, g, b)` label holds the decimal channels of the same colour as the hex label |
| Colors.DecimalOfParseChannel | app/src/main/java/com/japygo/study/randomcolorpicker/MainViewModel.kt:93 | a channel that reads back is written exactly as `Int.toString()` writes its value |
| Colors.RgbCodeOfParseRgbCode | app/src/main/java/com/japygo/study/randomcolorpicker/MainViewModel.kt:92-93 | every `RGB(r, g, b)` text that reads as a colour is exactly that colour's label; the label has no second spelling |
| Colors.ParseChannelOfDecimal | app/src/main/java/com/japygo/study/randomcolorpicker/MainViewModel.kt:93 | a channel printed in decimal reads back as the same channel |
| CenterSampler.Wrap | app/src/main/java/com/japygo/study/randomcolorpicker/ui/CameraScreen.kt:204 | `Int` arithmetic agrees with integer arithmetic modulo 2^32 and is exact in range |
| CenterSampler.Half | app/src/main/java/com/japygo/study/randomcolorpicker/ui/CameraScreen.kt:200-201 | `/ 2` on `Int` rounds toward zero |
| CenterSampler.Unsigned | app/src/main/java/com/japygo/study/randomcolorpicker/ui/CameraScreen.kt:217 | `and 0xFF` gives a value in [0, 255] with the byte's low eight bits |
| CenterSampler.LumaOffset | app/src/main/java/com/japygo/study/randomcolorpicker/ui/CameraScreen.kt:204 | the centre pixel's index in the Y plane in wrapping `Int` arithmetic; `CentreOffsets` proves it is `(h/2)*rowStride + (w/2)*pixelStride` when nothing overflows, and `ExtractCenterColor` reports it when the Y read fails |
| CenterSampler.ChromaOffset | app/src/main/java/com/japygo/study/randomcolorpicker/ui/CameraScreen.kt:230 | the centre's index in the chroma planes, from the halved centre and the U plane's strides; `CentreOffsets` gives its closed form, and `ExtractCenterColor` reports it for a failed U or V read |
| CenterSampler.TruncDiv | app/src/main/java/com/japygo/study/randomcolorpicker/ui/CameraScreen.kt:236-238 | `toInt()` of a quotient drops the fraction toward zero |
| CenterSampler.Clamp | app/src/main/java/com/japygo/study/randomcolorpicker/ui/CameraScreen.kt:236-238 | `coerceIn(0, 255)` keeps in-range values and sends the rest to the nearer bound |
| CenterSampler.YuvToRgb | app/src/main/java/com/japygo/study/randomcolorpicker/ui/CameraScreen.kt:235-240 | the fixed transform; `YuvToRgbIsExact` proves it equals truncating the exact real-valued formula, then clamping |
| CenterSampler.ExtractCenterColor | app/src/main/java/com/japygo/study/randomcolorpicker/ui/CameraScreen.kt:191-242 | the sampler succeeds exactly when the luma offset is inside the Y plane and the chroma offset inside both the U and the V plane; otherwise it fails at the first read that is out of bounds, in the order Y (plane 0, luma offset), U (plane 1, chroma offset), V (plane 2, chroma offset) |
| CenterSampler.OffsetWithoutOverflow | app/src/main/java/com/japygo/study/randomcolorpicker/ui/CameraScreen.kt:204 | with non-negative factors and a sum that fits an `Int`, the wrapped offset is `row*rowStride + col*pixelStride` |
| CenterSampler.CentreOffsets | app/src/main/java/com/japygo/study/randomcolorpicker/ui/CameraScreen.kt:200-230 | the luma offset is `(h/2)*rowStride + (w/2)*pixelStride`; the chroma offset is `(h/2/2)*uvRowStride + (w/2/2)*uvPixelStride` with the U plane's strides |
| CenterSampler.CentreSample | app/src/main/java/com/japygo/study/randomcolorpicker/ui/CameraScreen.kt:214-239 | in range, Y lies in [0, 255], U and V in [-128, 127], and the result converts the luma byte and the U and V bytes at the one chroma offset |
| CenterSampler.TruncDivIsTruncReal | app/src/main/java/com/japygo/study/randomcolorpicker/ui/CameraScreen.kt:236-238 | the integer quotient by 10^6 is the exact real quotient truncated toward zero |
| CenterSampler.YuvToRgbIsExact | app/src/main/java/com/japygo/study/randomcolorpicker/ui/CameraScreen.kt:236-238 | the fixed-point conversion equals truncating and clamping the exact formula with the source's decimal coefficients |
| CenterSampler.NeutralChromaIsGrey | app/src/main/java/com/japygo/study/randomcolorpicker/ui/CameraScreen.kt:236-238 | U = V = 0 gives the grey (Y, Y, Y) |
| CenterSampler.WhiteAndBlack | app/src/main/java/com/japygo/study/randomcolorpicker/ui/CameraScreen.kt:236-238 | Y = 255 with neutral chroma is white; Y = 0 is black |
| CenterSampler.RedSaturates | app/src/main/java/com/japygo/study/randomcolorpicker/ui/CameraScreen.kt:236 | Y = 200, V = 127 gives an unclamped red of 374, clamped to 255 |
| CenterSampler.BrighterLuma | app/src/main/java/com/japygo/study/randomcolorpicker/ui/CameraScreen.kt:236-238 | raising Y never lowers any output channel |
| CenterSampler.RoundingDirectionInvisible | app/src/main/java/com/japygo/study/randomcolorpicker/ui/CameraScreen.kt:236-238 | truncating toward zero and rounding down give the same clamped channel |
| MainViewModel.DefaultState | app/src/main/java/com/japygo/study/randomcolorpicker/MainViewModel.kt:15-23 | the default state is white, brightness 1, with empty history and saved lists, no delete candidate, and labels `#FFFFFF` and `RGB(255, 255, 255)` that describe white |
| MainViewModel.WhiteLabels | app/src/main/java/com/japygo/study/randomcolorpicker/MainViewModel.kt:17-18 | the default labels `#FFFFFF` and `RGB(255, 255, 255)` are the hex and decimal labels of white |
| MainViewModel.LabelsDetermined | app/src/main/java/com/japygo/study/randomcolorpicker/MainViewModel.kt:86-93 | the labels read back as the shown colour exactly when they are the `#RRGGBB` and `RGB(r, g, b)` texts `updateColor` writes for it |
| MainViewModel.UpdateColor | app/src/main/java/com/japygo/study/randomcolorpicker/MainViewModel.kt:85-113 | the colour is shown with exactly its `#RRGGBB` and `RGB(r, g, b)` labels, which read back as it; the candidate is cleared; brightness, history and saved colours are unchanged; exactly one history insert of `color.toArgb().toLong()` is requested when asked for, and none otherwise |
| MainViewModel.GenerateNewColor | app/src/main/java/com/japygo/study/randomcolorpicker/MainViewModel.kt:49-56 | the new colour has the three drawn channels, each in [0, 255], with matching labels; by default one history insert of its code is requested and otherwise none; the delete dialog closes and brightness, history and saved colours are kept |
| MainViewModel.RestoreColor | app/src/main/java/com/japygo/study/randomcolorpicker/MainViewModel.kt:115-117 | restoring shows the colour with matching labels but requests nothing, closes the delete dialog and leaves history, saved colours and brightness alone |
| MainViewModel.UpdateBrightness | app/src/main/java/com/japygo/study/randomcolorpicker/MainViewModel.kt:58-62 | only the brightness changes |
| MainViewModel.SetDeleteCandidate | app/src/main/java/com/japygo/study/randomcolorpicker/MainViewModel.kt:71-73 | only the delete candidate changes |
| MainViewModel.BookmarkColor | app/src/main/java/com/japygo/study/randomcolorpicker/MainViewModel.kt:64-69 | the state is unchanged and exactly one save request carries `currentColor.toArgb().toLong()` |
| MainViewModel.DeleteSavedColor | app/src/main/java/com/japygo/study/randomcolorpicker/MainViewModel.kt:75-83 | exactly one removal request carries `color.toArgb().toLong()`; the candidate is cleared only when it is that colour, and nothing else changes |
| MainViewModel.HistoryChanged | app/src/main/java/com/japygo/study/randomcolorpicker/MainViewModel.kt:31-36 | the history shows the unpacked stored codes, in order, and nothing else changes |
| MainViewModel.SavedColorsChanged | app/src/main/java/com/japygo/study/randomcolorpicker/MainViewModel.kt:39-44 | the saved list shows the unpacked stored codes, in order, and nothing else changes |
| MainViewModel.Init | app/src/main/java/com/japygo/study/randomcolorpicker/MainViewModel.kt:25-47 | the view model starts on the drawn colour with default brightness, empty lists, no candidate and one history insert of that colour |
| MainViewModel.LabelsAlwaysMatch | app/src/main/java/com/japygo/study/randomcolorpicker/MainViewModel.kt:49-117 | no operation leaves a label that disagrees with the shown colour |
| MainViewModel.OnlyGenerateAddsHistory | app/src/main/java/com/japygo/study/randomcolorpicker/MainViewModel.kt:104-106 | an operation requests a history insert exactly when it generates a colour with `addToHistory` set |
| MainViewModel.ColorChangesOnlyWhenChosen | app/src/main/java/com/japygo/study/randomcolorpicker/MainViewModel.kt:58-83 | brightness, candidate, bookmark, delete and list updates keep the shown colour and its labels |
| MainViewModel.GeneratedColorHeadsHistory | app/src/main/java/com/japygo/study/randomcolorpicker/MainViewModel.kt:109-113 | once its insert has gone through the repository and the collector, a generated colour is first in a history of at most 5 |
| AdMobManager.LoadInterstitial | app/src/main/java/com/japygo/study/randomcolorpicker/ads/AdMobManager.kt:114-118 | nothing happens while a load is in flight or an ad is cached; otherwise only the in-flight flag is set and a load starts |
| AdMobManager.OnAdFailedToLoad | app/src/main/java/com/japygo/study/randomcolorpicker/ads/AdMobManager.kt:127-139 | the ad is cleared and the load ends; while attempt < 3, the attempt goes up by one and one retry is scheduled after 1000·2^attempt ms; otherwise nothing is scheduled |
| AdMobManager.OnAdLoaded | app/src/main/java/com/japygo/study/randomcolorpicker/ads/AdMobManager.kt:141-145 | the ad is cached, the load ends and the attempt returns to 0 |
| AdMobManager.ResetCounter | app/src/main/java/com/japygo/study/randomcolorpicker/ads/AdMobManager.kt:199-201 | only the usage count changes, to 0 |
| AdMobManager.CleanupAd | app/src/main/java/com/japygo/study/randomcolorpicker/ads/AdMobManager.kt:190-193 | only the cached ad is dropped |
| AdMobManager.ShowInterstitial | app/src/main/java/com/japygo/study/randomcolorpicker/ads/AdMobManager.kt:168-188 | the cached ad is shown and the usage count becomes 0; nothing else changes |
| AdMobManager.HandleCameraExit | app/src/main/java/com/japygo/study/randomcolorpicker/ads/AdMobManager.kt:155-166 | each exit counts once; an ad is shown exactly when the new count reaches 3 or more with an ad cached, and then only the count changes, to 0; with no ad cached and no load in flight a load starts; with no ad cached and a load in flight, or below 3 with an ad cached, the exit only counts |
| AdMobManager.OnAdDismissed | app/src/main/java/com/japygo/study/randomcolorpicker/ads/AdMobManager.kt:170-174 | dismissal leaves no cached ad; it requests a preload and marks a load in flight when none is in flight, and otherwise changes nothing else |
| AdMobManager.OnAdFailedToShow | app/src/main/java/com/japygo/study/randomcolorpicker/ads/AdMobManager.kt:176-179 | a failed show leaves no cached ad and changes nothing else |
| AdMobManager.FullScreenCallbacks | app/src/main/java/com/japygo/study/randomcolorpicker/ads/AdMobManager.kt:169-184 | showed, dismissed and failed-to-show each leave no cached ad and keep both counters; showed changes nothing else (a load in flight stays in flight) and requests nothing; only a dismissal requests a load, and it does so when no load is in flight |
| AdMobManager.LoadGuard | app/src/main/java/com/japygo/study/randomcolorpicker/ads/AdMobManager.kt:114-117 | on every event, a load starts only when none is in flight and then one is in flight; a load comes to be in flight only by a requested load; only a load callback ends a load in flight |
| AdMobManager.Next | app/src/main/java/com/japygo/study/randomcolorpicker/ads/AdMobManager.kt:181-184 | the AdShowed case only forgets the cached ad; `FullScreenCallbacks` pins it to that one change with no effect, and `LoadGuard` shows it cannot start or end a load |
| AdMobManager.ShouldShowAd | app/src/main/java/com/japygo/study/randomcolorpicker/ads/AdMobManager.kt:195-197 | an ad is due once the camera has been used at least 3 times; `ShowOnlyWhenDue` proves a show happens only when it is due with an ad cached |
| AdMobManager.RetryDelay | app/src/main/java/com/japygo/study/randomcolorpicker/ads/AdMobManager.kt:134 | the backoff starts from 1000 ms and doubles with each attempt; `RetryDelays` gives the three delays that occur |
| AdMobManager.NextKeepsValid | app/src/main/java/com/japygo/study/randomcolorpicker/ads/AdMobManager.kt:114-201 | every event keeps the attempt at most 3 and never has a load in flight with an ad cached |
| AdMobManager.RunKeepsValid | app/src/main/java/com/japygo/study/randomcolorpicker/ads/AdMobManager.kt:114-201 | the same holds after any sequence of events |
| AdMobManager.RetryDelays | app/src/main/java/com/japygo/study/randomcolorpicker/ads/AdMobManager.kt:132-134 | a retry comes only from a failed load and waits 2000, 4000 or 8000 ms |
| AdMobManager.ShowOnlyWhenDue | app/src/main/java/com/japygo/study/randomcolorpicker/ads/AdMobManager.kt:158-159 | an ad is shown only on a camera exit that brings the count to at least 3 with an ad cached, and the count becomes 0 |
| AdMobManager.FrequencyCap | app/src/main/java/com/japygo/study/randomcolorpicker/ads/AdMobManager.kt:155-166 | over any run, three times the number of ads shown plus the final count is at most the starting count plus the camera exits |
| AdMobManager.RetriesBounded | app/src/main/java/com/japygo/study/randomcolorpicker/ads/AdMobManager.kt:132-138 | without a successful load, each retry raises the attempt by one, so at most 3 retries are scheduled in a row |
| AdMobManager.StepRetries | app/src/main/java/com/japygo/study/randomcolorpicker/ads/AdMobManager.kt:131-133 | short of a successful load, one event schedules exactly as many retries as it adds to the attempt |
| AdMobManager.ThirdExitShows | app/src/main/java/com/japygo/study/randomcolorpicker/ads/AdMobManager.kt:155-166 | with an ad cached and a fresh count, the first two exits do nothing and the third shows the ad |
| AdMobManager.FailedRound | app/src/main/java/com/japygo/study/randomcolorpicker/ads/AdMobManager.kt:114-138 | a load from an idle state that fails, below the retry cap, starts one load and then schedules the next retry after 1000 · 2^(attempt + 1) ms, with the attempt counted up and the rest of the run unaffected |
| AdMobManager.GiveUpAfterCap | app/src/main/java/com/japygo/study/randomcolorpicker/ads/AdMobManager.kt:132 | once the attempt has reached the cap, a due retry that fails again starts its load and schedules nothing |
| AdMobManager.LastRetry | app/src/main/java/com/japygo/study/randomcolorpicker/ads/AdMobManager.kt:127-138 | from attempt 2, two more failures schedule a retry after 8000 ms and then stop |
| AdMobManager.LaterRetries | app/src/main/java/com/japygo/study/randomcolorpicker/ads/AdMobManager.kt:127-138 | from attempt 1, three more failures schedule retries after 4000 and 8000 ms and then stop |
| AdMobManager.BackoffSchedule | app/src/main/java/com/japygo/study/randomcolorpicker/ads/AdMobManager.kt:127-138 | from a fresh start, at any usage count, four failures in a row schedule retries after 2000, 4000 and 8000 ms and then stop |

## Left out

- DataStore I/O, `Flow` collection and `viewModelScope.launch`: reads and writes are functions on a map, and the order of launched coroutines is not modelled. `deleteSavedColor` checks the candidate after its removal call; here both happen in one step.
- The saved-colour repository operations `savedColorsFlow`, `addSavedColor` and `removeSavedColor` are not part of this model. Their definitions are not in the modelled source, so the view model only emits requests for them.
- `toLongOrNull` is modelled for ASCII digits. The JVM's `Character.digit` also accepts other Unicode decimal digits. Stored strings are written by `joinToString` and hold ASCII digits only.
- Floating point. The conversion coefficients are exact decimals, so a result at an exact integer boundary may differ by one from `Double` evaluation; the clamp and range properties do not depend on this. The labels use integer channels, not `(color.red * 255).toInt()` on `Float`s. Brightness is a `real`.
- Colours carry no alpha. `Color(code.toInt())` of a stored code whose alpha is not 0xFF would be a translucent colour in the app. Here it is the opaque colour with the same RGB. `toArgb()` of a colour built from channels is always opaque.
- Compose UI, navigation, `MainActivity`, the exit dialog, permissions, camera binding, the analyzer's executor and build configuration.
- The ads SDK objects, banner and native ad caching, and `MobileAds.initialize`'s callback. The `Handler.postDelayed` timer is an effect carrying the delay, and the later call is the `RetryDue` event.
- Formats other than three-plane YUV_420_888. A frame always has a Y, a U and a V plane.
- AdMobManager.HandleCameraExit: the usage count is unbounded; Kotlin's `Int` would wrap after 2^31 exits without a cached ad.

=== FILE: ad_mob_manager.dfy ===
/**
 * The interstitial logic of `AdMobManager`, with the ads SDK replaced by
 * events: the SDK's load and full-screen callbacks, the retry timer firing,
 * and the app's camera exits. What is left is a small counter machine; each
 * transition returns the new state and the effects it asks of the SDK or the
 * main looper.
 */
module AdMobManager {

  const MAX_RETRY_ATTEMPTS: int := 3
  const AD_FREQUENCY: int := 3
  const BASE_DELAY_MILLIS: int := 1000

  /**
   * The manager's fields: whether an interstitial is cached, whether a load is
   * in flight, the retry attempt and the camera usage count. Both counters
   * start at zero and are only incremented or reset.
   */
  datatype AdState = AdState(adCached: bool, isAdLoading: bool, retryAttempt: nat, cameraUsageCount: nat)

  const INITIAL: AdState := AdState(false, false, 0, 0)

  datatype Effect =
    | StartLoad                        // `InterstitialAd.load(...)`
    | ScheduleRetry(delayMillis: int)  // `postDelayed({ loadInterstitial(...) }, delayMillis)`
    | Show                             // `interstitialAd?.show(activity)` on a cached ad

  datatype Step = Step(state: AdState, effects: seq<Effect>)

  datatype Event =
    | Initialize      // `initialize`: only its interstitial load is modelled
    | RetryDue        // a scheduled retry runs `loadInterstitial`
    | LoadFailed      // `onAdFailedToLoad`
    | LoadSucceeded   // `onAdLoaded`
    | CameraExit      // `handleCameraExit`
    | AdShowed        // `onAdShowedFullScreenContent`
    | AdDismissed     // `onAdDismissedFullScreenContent`
    | AdFailedToShow  // `onAdFailedToShowFullScreenContent`

  function Pow2(n: nat): (p: nat)
    ensures p >= 1
  {
    if n == 0 then 1 else 2 * Pow2(n - 1)
  }

  /** `(1000 * Math.pow(2.0, attempt)).toLong()`, exact for the attempts that occur. */
  function RetryDelay(attempt: nat): (d: int)
    ensures d >= BASE_DELAY_MILLIS
    ensures attempt > 0 ==> d == 2 * RetryDelay(attempt - 1)
  {
    BASE_DELAY_MILLIS * Pow2(attempt)
  }

  /** `loadInterstitial`: start a load unless one is in flight or an ad is cached. */
  function LoadInterstitial(s: AdState): (r: Step)
    ensures s.isAdLoading || s.adCached ==> r == Step(s, [])
    ensures !s.isAdLoading && !s.adCached ==>
      r.effects == [StartLoad] && r.state.isAdLoading && r.state.(isAdLoading := false) == s
  {
    if s.isAdLoading || s.adCached then Step(s, [])
    else Step(s.(isAdLoading := true), [StartLoad])
  }

  /** `onAdFailedToLoad`: forget the ad, end the load, and retry with backoff while attempts remain. */
  function OnAdFailedToLoad(s: AdState): (r: Step)
    ensures !r.state.adCached && !r.state.isAdLoading
    ensures r.state.cameraUsageCount == s.cameraUsageCount
    ensures s.retryAttempt < MAX_RETRY_ATTEMPTS ==>
      r.state.retryAttempt == s.retryAttempt + 1 && r.effects == [ScheduleRetry(RetryDelay(r.state.retryAttempt))]
    ensures s.retryAttempt >= MAX_RETRY_ATTEMPTS ==> r.state.retryAttempt == s.retryAttempt && r.effects == []
  {
    var cleared := s.(adCached := false, isAdLoading := false);
    if s.retryAttempt < MAX_RETRY_ATTEMPTS then
      var attempt := s.retryAttempt + 1;
      Step(cleared.(retryAttempt := attempt), [ScheduleRetry(RetryDelay(attempt))])
    else Step(cleared, [])
  }

  /** `onAdLoaded`: cache the ad, end the load, and reset the retry attempt. */
  function OnAdLoaded(s: AdState): (r: AdState)
    ensures r.adCached && !r.isAdLoading && r.retryAttempt == 0
    ensures r.cameraUsageCount == s.cameraUsageCount
  {
    s.(adCached := true, isAdLoading := false, retryAttempt := 0)
  }

  /** `shouldShowAd`. */
  predicate ShouldShowAd(s: AdState) {
    s.cameraUsageCount >= AD_FREQUENCY
  }

  /** `resetCounter`. */
  function ResetCounter(s: AdState): (r: AdState)
    ensures r.cameraUsageCount == 0 && r.(cameraUsageCount := s.cameraUsageCount) == s
  {
    s.(cameraUsageCount := 0)
  }

  /** `cleanupAd`: drop the cached ad (its callback goes with it). */
  function CleanupAd(s: AdState): (r: AdState)
    ensures !r.adCached && r.(adCached := s.adCached) == s
  {
    s.(adCached := false)
  }

  /** `showInterstitial`: show the cached ad, if any, and reset the usage count. */
  function ShowInterstitial(s: AdState): (r: Step)
    ensures r.state.cameraUsageCount == 0
    ensures r.effects == if s.adCached then [Show] else []
    ensures r.state.(cameraUsageCount := s.cameraUsageCount) == s
  {
    Step(ResetCounter(s), if s.adCached then [Show] else [])
  }

  /** `handleCameraExit`: count the exit, then show an ad when one is due and cached, else load one if none is cached. */
  function HandleCameraExit(s: AdState): (r: Step)
    ensures Show in r.effects <==> s.cameraUsageCount + 1 >= AD_FREQUENCY && s.adCached
    ensures Show in r.effects ==> r == Step(s.(cameraUsageCount := 0), [Show])
    ensures Show !in r.effects ==> r.state.cameraUsageCount == s.cameraUsageCount + 1
    ensures !s.adCached && !s.isAdLoading ==> r.effects == [StartLoad] && r.state.isAdLoading
    ensures !s.adCached && s.isAdLoading ==> r == Step(s.(cameraUsageCount := s.cameraUsageCount + 1), [])
    ensures s.adCached && s.cameraUsageCount + 1 < AD_FREQUENCY ==> r == Step(s.(cameraUsageCount := s.cameraUsageCount + 1), [])
    ensures r.state.adCached == s.adCached && r.state.retryAttempt == s.retryAttempt
  {
    var counted := s.(cameraUsageCount := s.cameraUsageCount + 1);
    if ShouldShowAd(counted) && counted.adCached then ShowInterstitial(counted)
    else if !counted.adCached then LoadInterstitial(counted)
    else Step(counted, [])
  }

  /** `onAdDismissedFullScreenContent`: clean up, then preload the next ad. */
  function OnAdDismissed(s: AdState): (r: Step)
    ensures !r.state.adCached
    ensures !s.isAdLoading ==> r.effects == [StartLoad]
    ensures s.isAdLoading ==> r == Step(s.(adCached := false), [])
    ensures !s.isAdLoading ==> r == Step(s.(adCached := false, isAdLoading := true), [StartLoad])
  {
    LoadInterstitial(CleanupAd(s))
  }

  /** `onAdFailedToShowFullScreenContent`: clean up only. */
  function OnAdFailedToShow(s: AdState): (r: AdState)
    ensures !r.adCached && r.(adCached := s.adCached) == s
  {
    CleanupAd(s)
  }

  function Next(s: AdState, e: Event): Step {
    match e
    case Initialize => LoadInterstitial(s)
    case RetryDue => LoadInterstitial(s)
    case LoadFailed => OnAdFailedToLoad(s)
    case LoadSucceeded => Step(OnAdLoaded(s), [])
    case CameraExit => HandleCameraExit(s)
    // `onAdShowedFullScreenContent` only forgets the ad; the callback stays
    // attached to it, which nothing here can observe.
    case AdShowed => Step(s.(adCached := false), [])
    case AdDismissed => OnAdDismissed(s)
    case AdFailedToShow => Step(OnAdFailedToShow(s), [])
  }

  /** A sequence of events, one after another, with every effect in order. */
  function Run(s: AdState, events: seq<Event>): Step
    decreases |events|
  {
    if |events| == 0 then Step(s, [])
    else
      var first := Next(s, events[0]);
      var rest := Run(first.state, events[1..]);
      Step(rest.state, first.effects + rest.effects)
  }

  // ---------------------------------------------------------------------
  // Invariants

  /**
   * The retry attempt stays within its cap, and a load is never in flight while an ad is cached.
   */
  predicate Valid(s: AdState) {
    && s.retryAttempt <= MAX_RETRY_ATTEMPTS
    && !(s.isAdLoading && s.adCached)
  }

  lemma NextKeepsValid(s: AdState, e: Event)
    requires Valid(s)
    ensures Valid(Next(s, e).state)
  {
  }

  lemma {:induction false} RunKeepsValid(s: AdState, events: seq<Event>)
    requires Valid(s)
    ensures Valid(Run(s, events).state)
    decreases |events|
  {
    if |events| > 0 {
      NextKeepsValid(s, events[0]);
      RunKeepsValid(Next(s, events[0]).state, events[1..]);
    }
  }

  /** Every retry from a valid state waits 2, 4 or 8 seconds. */
  lemma RetryDelays(s: AdState, e: Event, d: int)
    requires Valid(s)
    requires ScheduleRetry(d) in Next(s, e).effects
    ensures e == LoadFailed
    ensures d == RetryDelay(s.retryAttempt + 1)
    ensures d == 2000 || d == 4000 || d == 8000
  {
    assert Pow2(1) == 2 && Pow2(2) == 4 && Pow2(3) == 8;
  }

  /** An ad is shown only on a camera exit that reaches the frequency with an ad cached, and the count restarts. */
  lemma ShowOnlyWhenDue(s: AdState, e: Event)
    requires Show in Next(s, e).effects
    ensures e == CameraExit
    ensures s.cameraUsageCount + 1 >= AD_FREQUENCY && s.adCached
    ensures Next(s, e).state.cameraUsageCount == 0
  {
  }

  /**
   * The three full-screen callbacks each leave no cached ad; only the
   * dismissal asks for the next one, and none of them touches the counters.
   */
  lemma FullScreenCallbacks(s: AdState, e: Event)
    requires e == AdShowed || e == AdDismissed || e == AdFailedToShow
    ensures !Next(s, e).state.adCached
    ensures Next(s, e).state.retryAttempt == s.retryAttempt
    ensures Next(s, e).state.cameraUsageCount == s.cameraUsageCount
    ensures Next(s, e).effects != [] <==> e == AdDismissed && !s.isAdLoading
    ensures e == AdDismissed && !s.isAdLoading ==> Next(s, e).effects == [StartLoad]
    ensures e == AdShowed ==> Next(s, e) == Step(s.(adCached := false), [])
  {
  }

  /**
   * The in-flight guard of `loadInterstitial`, over every event: a load starts
   * only when none is in flight and marks one in flight, and only a load
   * callback ends one.
   */
  lemma LoadGuard(s: AdState, e: Event)
    ensures StartLoad in Next(s, e).effects ==> !s.isAdLoading && Next(s, e).state.isAdLoading
    ensures s.isAdLoading && e != LoadFailed && e != LoadSucceeded ==> Next(s, e).state.isAdLoading
    ensures !s.isAdLoading && Next(s, e).state.isAdLoading ==> StartLoad in Next(s, e).effects
  {
  }

  function CountShows(effects: seq<Effect>): nat {
    if |effects| == 0 then 0 else (if effects[0] == Show then 1 else 0) + CountShows(effects[1..])
  }

  function CountRetries(effects: seq<Effect>): nat {
    if |effects| == 0 then 0 else (if effects[0].ScheduleRetry? then 1 else 0) + CountRetries(effects[1..])
  }

  function CountExits(events: seq<Event>): nat {
    if |events| == 0 then 0 else (if events[0] == CameraExit then 1 else 0) + CountExits(events[1..])
  }

  lemma {:induction false} CountsAppend(a: seq<Effect>, b: seq<Effect>)
    ensures CountShows(a + b) == CountShows(a) + CountShows(b)
    ensures CountRetries(a + b) == CountRetries(a) + CountRetries(b)
  {
    if |a| > 0 {
      assert (a + b)[1..] == a[1..] + b;
      CountsAppend(a[1..], b);
    } else {
      assert a + b == b;
    }
  }

  /**
   * Frequency cap: over any run, every shown ad used up three camera exits.
   * Three shows plus the final count never exceed the starting count plus
   * the exits.
   */
  lemma {:induction false} FrequencyCap(s: AdState, events: seq<Event>)
    ensures 3 * CountShows(Run(s, events).effects) + Run(s, events).state.cameraUsageCount
      <= s.cameraUsageCount + CountExits(events)
    decreases |events|
  {
    if |events| > 0 {
      var first := Next(s, events[0]);
      FrequencyCap(first.state, events[1..]);
      CountsAppend(first.effects, Run(first.state, events[1..]).effects);
      if events[0] == CameraExit {
        assert CountShows(first.effects) == if Show in first.effects then 1 else 0 by {
          if Show in first.effects { assert first.effects == [Show]; }
          else if |first.effects| > 0 { assert first.effects[0] != Show; assert first.effects[1..] == []; }
        }
      } else {
        assert Show !in first.effects;
        NoShowCountsZero(first.effects);
      }
    }
  }

  lemma {:induction false} NoShowCountsZero(effects: seq<Effect>)
    requires Show !in effects
    ensures CountShows(effects) == 0
  {
    if |effects| > 0 {
      NoShowCountsZero(effects[1..]);
    }
  }

  /**
   * Retry bound: without a successful load, each scheduled retry raises the
   * attempt by one, so at most three retries follow in a row.
   */
  lemma {:induction false} RetriesBounded(s: AdState, events: seq<Event>)
    requires Valid(s)
    requires LoadSucceeded !in events
    ensures CountRetries(Run(s, events).effects) + s.retryAttempt == Run(s, events).state.retryAttempt
    ensures CountRetries(Run(s, events).effects) <= MAX_RETRY_ATTEMPTS - s.retryAttempt
    decreases |events|
  {
    if |events| > 0 {
      var first := Next(s, events[0]);
      NextKeepsValid(s, events[0]);
      assert LoadSucceeded !in events[1..];
      RetriesBounded(first.state, events[1..]);
      CountsAppend(first.effects, Run(first.state, events[1..]).effects);
      StepRetries(s, events[0]);
    }
    RunKeepsValid(s, events);
  }

  /** Short of a successful load, one event schedules as many retries as it adds attempts. */
  lemma StepRetries(s: AdState, e: Event)
    requires e != LoadSucceeded
    ensures CountRetries(Next(s, e).effects) + s.retryAttempt == Next(s, e).state.retryAttempt
  {
    var first := Next(s, e);
    if e == LoadFailed && s.retryAttempt < MAX_RETRY_ATTEMPTS {
      assert first.effects[1..] == [];
    } else {
      NoRetryCountsZero(first.effects);
    }
  }

  lemma {:induction false} NoRetryCountsZero(effects: seq<Effect>)
    requires forall i :: 0 <= i < |effects| ==> !effects[i].ScheduleRetry?
    ensures CountRetries(effects) == 0
  {
    if |effects| > 0 {
      NoRetryCountsZero(effects[1..]);
    }
  }

  /** With an ad cached and a fresh count, the first two exits show nothing and the third shows the ad. */
  lemma ThirdExitShows(s: AdState)
    requires s.adCached && !s.isAdLoading && s.cameraUsageCount == 0
    ensures var e1 := HandleCameraExit(s);
      var e2 := HandleCameraExit(e1.state);
      var e3 := HandleCameraExit(e2.state);
      && e1.effects == [] && e2.effects == [] && e3.effects == [Show]
      && e3.state.cameraUsageCount == 0
  {
  }

  /**
   * A load (the first one, or a due retry) that fails, followed by anything:
   * one load, then the next backoff delay while attempts remain, then whatever
   * the rest does.
   */
  lemma FailedRound(load: Event, k: nat, usage: nat, rest: seq<Event>)
    requires load == Initialize || load == RetryDue
    requires k < MAX_RETRY_ATTEMPTS
    ensures Run(AdState(false, false, k, usage), [load, LoadFailed] + rest).effects
      == [StartLoad, ScheduleRetry(RetryDelay(k + 1))] + Run(AdState(false, false, k + 1, usage), rest).effects
  {
    var evs := [load, LoadFailed] + rest;
    assert evs[0] == load && evs[1..][0] == LoadFailed;
    assert evs[1..][1..] == rest;
  }

  // The next four lemmas take their event list as a parameter fixed by a
  // `requires`: written as a literal in the statement, the list would let the
  // solver unfold `Run` on it eagerly and run out of resources.

  /** From the last retry attempt on, a failed load schedules nothing more. */
  lemma GiveUpAfterCap(usage: nat, events: seq<Event>)
    requires events == [RetryDue, LoadFailed]
    ensures Run(AdState(false, false, MAX_RETRY_ATTEMPTS, usage), events).effects == [StartLoad]
  {
    var loading := AdState(false, true, MAX_RETRY_ATTEMPTS, usage);
    assert events[0] == RetryDue && events[1..][0] == LoadFailed && events[1..][1..] == [];
    assert Run(loading, events[1..]).effects == [];
  }

  /** The last retry: 8 seconds, then a last load. */
  lemma LastRetry(usage: nat, events: seq<Event>)
    requires events == [RetryDue, LoadFailed, RetryDue, LoadFailed]
    ensures Run(AdState(false, false, 2, usage), events).effects == [StartLoad, ScheduleRetry(8000), StartLoad]
  {
    assert Pow2(3) == 8;
    GiveUpAfterCap(usage, events[2..]);
    FailedRound(RetryDue, 2, usage, events[2..]);
    assert [RetryDue, LoadFailed] + events[2..] == events;
  }

  /** The retries after the first one: 4 then 8 seconds, then a last load. */
  lemma LaterRetries(usage: nat, events: seq<Event>)
    requires events == [RetryDue, LoadFailed, RetryDue, LoadFailed, RetryDue, LoadFailed]
    ensures Run(AdState(false, false, 1, usage), events).effects
      == [StartLoad, ScheduleRetry(4000), StartLoad, ScheduleRetry(8000), StartLoad]
  {
    assert Pow2(2) == 4;
    LastRetry(usage, events[2..]);
    FailedRound(RetryDue, 1, usage, events[2..]);
    assert [RetryDue, LoadFailed] + events[2..] == events;
  }

  /**
   * Four failed loads in a row from a fresh start, whatever the usage count,
   * schedule retries after 2, 4 and 8 seconds, then give up.
   */
  lemma BackoffSchedule(usage: nat, events: seq<Event>)
    requires events == [Initialize, LoadFailed, RetryDue, LoadFailed, RetryDue, LoadFailed, RetryDue, LoadFailed]
    ensures Run(AdState(false, false, 0, usage), events).effects
      == [StartLoad, ScheduleRetry(2000), StartLoad, ScheduleRetry(4000), StartLoad, ScheduleRetry(8000), StartLoad]
  {
    var later := events[2..];
    assert Pow2(1) == 2;
    LaterRetries(usage, later);
    FailedRound(Initialize, 0, usage, later);
    assert [Initialize, LoadFailed] + later == events;
  }
}

=== FILE: center_sampler.dfy ===
/**
 * `extractCenterColor`: read the centre pixel of a YUV_420_888 camera frame
 * and turn it into an RGB colour.
 *
 * Offsets are computed in Kotlin `Int` arithmetic (32-bit, wrapping) and read
 * with `ByteBuffer.get(index)`, which throws when the index is outside the
 * buffer; the thrown exception is the `Failure` of the result here.
 */
module CenterSampler {
  import opened Wrappers
  import opened Colors

  const INT_MIN: int := -0x8000_0000
  const INT_MAX: int := 0x7FFF_FFFF
  const INT_MODULUS: int := 0x1_0000_0000

  /** A Kotlin `Int`. */
  type Int = x: int | INT_MIN <= x <= INT_MAX

  /** A JVM `byte`, as `ByteBuffer.get` returns it. */
  type Byte = x: int | -128 <= x < 128

  /** One image plane: its bytes up to the buffer's limit, and its strides. */
  datatype Plane = Plane(buffer: seq<Byte>, rowStride: Int, pixelStride: Int)

  /** An `ImageProxy` in YUV_420_888: a luma plane and two chroma planes. */
  datatype Frame = Frame(width: Int, height: Int, y: Plane, u: Plane, v: Plane)

  /** The plane that `ByteBuffer.get` rejected, and the index it was given. */
  datatype SampleError = IndexOutOfBounds(plane: nat, index: Int)

  /** Kotlin `Int` arithmetic wraps around modulo 2^32. */
  function Wrap(x: int): (r: Int)
    ensures INT_MIN <= x <= INT_MAX ==> r == x
    ensures (r - x) % INT_MODULUS == 0
  {
    (x - INT_MIN) % INT_MODULUS + INT_MIN
  }

  /** Kotlin `a / 2` on `Int`: the quotient rounds toward zero. */
  function Half(a: Int): (r: Int)
    ensures a >= 0 ==> 0 <= a - 2 * r <= 1
    ensures a < 0 ==> 0 <= 2 * r - a <= 1
  {
    if a >= 0 then a / 2 else -((-(a as int)) / 2)
  }

  /** `row * rowStride + col * pixelStride`, each step wrapping. */
  function Offset(row: Int, col: Int, rowStride: Int, pixelStride: Int): Int {
    Wrap(Wrap(row * rowStride) + Wrap(col * pixelStride))
  }

  /** The index of the centre pixel in the luma plane. */
  function LumaOffset(f: Frame): Int {
    Offset(Half(f.height), Half(f.width), f.y.rowStride, f.y.pixelStride)
  }

  /** The index of the centre's chroma sample; the U plane's strides serve both chroma reads. */
  function ChromaOffset(f: Frame): Int {
    Offset(Half(Half(f.height)), Half(Half(f.width)), f.u.rowStride, f.u.pixelStride)
  }

  /** `byte.toInt() and 0xFF`: the same eight bits, read as unsigned. */
  function Unsigned(b: Byte): (r: int)
    ensures 0 <= r < 256
    ensures r == b || r == b + 256
  {
    b % 256
  }

  /** Converting a `Double` to `Int` drops the fraction, rounding toward zero. */
  function TruncDiv(n: int, d: int): (q: int)
    requires d > 0
    ensures n >= 0 ==> 0 <= n - q * d < d
    ensures n < 0 ==> 0 <= q * d - n < d
  {
    if n >= 0 then n / d else -((-n) / d)
  }

  /** `coerceIn(0, 255)`. */
  function Clamp(x: int): (r: Channel)
    ensures 0 <= x <= 255 ==> r == x
    ensures x < 0 ==> r == 0
    ensures x > 255 ==> r == 255
  {
    if x < 0 then 0 else if x > 255 then 255 else x
  }

  /** The conversion coefficients, in millionths. */
  const SCALE: int := 1_000_000
  const V_TO_R: int := 1_370_705
  const U_TO_G: int := 337_633
  const V_TO_G: int := 698_001
  const U_TO_B: int := 1_732_446

  /** Red, green and blue before clamping, truncated to whole numbers. */
  function RedUnclamped(y: int, v: int): int { TruncDiv(y * SCALE + V_TO_R * v, SCALE) }
  function GreenUnclamped(y: int, u: int, v: int): int { TruncDiv(y * SCALE - U_TO_G * u - V_TO_G * v, SCALE) }
  function BlueUnclamped(y: int, u: int): int { TruncDiv(y * SCALE + U_TO_B * u, SCALE) }

  /** The fixed linear transform from luma and biased chroma to a colour. */
  function YuvToRgb(y: int, u: int, v: int): Color {
    Color(Clamp(RedUnclamped(y, v)), Clamp(GreenUnclamped(y, u, v)), Clamp(BlueUnclamped(y, u)))
  }

  predicate InBounds(p: Plane, index: Int) {
    0 <= index < |p.buffer|
  }

  /** `extractCenterColor(image)`. */
  function ExtractCenterColor(f: Frame): (r: Result<Color, SampleError>)
    ensures r.Success? <==> InBounds(f.y, LumaOffset(f)) && InBounds(f.u, ChromaOffset(f)) && InBounds(f.v, ChromaOffset(f))
    ensures r == Failure(IndexOutOfBounds(0, LumaOffset(f))) <==> !InBounds(f.y, LumaOffset(f))
    ensures r == Failure(IndexOutOfBounds(1, ChromaOffset(f))) <==>
      InBounds(f.y, LumaOffset(f)) && !InBounds(f.u, ChromaOffset(f))
    ensures r == Failure(IndexOutOfBounds(2, ChromaOffset(f))) <==>
      InBounds(f.y, LumaOffset(f)) && InBounds(f.u, ChromaOffset(f)) && !InBounds(f.v, ChromaOffset(f))
  {
    var offset := LumaOffset(f);
    if !InBounds(f.y, offset) then Failure(IndexOutOfBounds(0, offset))
    else
      var y := Unsigned(f.y.buffer[offset]);
      var uvOffset := ChromaOffset(f);
      if !InBounds(f.u, uvOffset) then Failure(IndexOutOfBounds(1, uvOffset))
      else
        var u := Unsigned(f.u.buffer[uvOffset]) - 128;
        if !InBounds(f.v, uvOffset) then Failure(IndexOutOfBounds(2, uvOffset))
        else
          var v := Unsigned(f.v.buffer[uvOffset]) - 128;
          Success(YuvToRgb(y, u, v))
  }

  // ---------------------------------------------------------------------
  // The offsets

  /** A stride product that cannot overflow is not wrapped. */
  lemma OffsetWithoutOverflow(row: Int, col: Int, rowStride: Int, pixelStride: Int)
    requires row >= 0 && col >= 0 && rowStride >= 0 && pixelStride >= 0
    requires row * rowStride + col * pixelStride <= INT_MAX
    ensures Offset(row, col, rowStride, pixelStride) == row * rowStride + col * pixelStride
  {
    assert row * rowStride >= 0;
    assert col * pixelStride >= 0;
  }

  /**
   * For a frame with non-negative sizes and strides whose offsets fit an
   * `Int`, the centre is (width/2, height/2) and the chroma sample sits at
   * half those coordinates.
   */
  lemma CentreOffsets(f: Frame)
    requires f.width >= 0 && f.height >= 0
    requires f.y.rowStride >= 0 && f.y.pixelStride >= 0 && f.u.rowStride >= 0 && f.u.pixelStride >= 0
    requires (f.height / 2) * f.y.rowStride + (f.width / 2) * f.y.pixelStride <= INT_MAX
    requires (f.height / 2 / 2) * f.u.rowStride + (f.width / 2 / 2) * f.u.pixelStride <= INT_MAX
    ensures LumaOffset(f) == (f.height / 2) * f.y.rowStride + (f.width / 2) * f.y.pixelStride
    ensures ChromaOffset(f) == (f.height / 2 / 2) * f.u.rowStride + (f.width / 2 / 2) * f.u.pixelStride
  {
    OffsetWithoutOverflow(f.height / 2, f.width / 2, f.y.rowStride, f.y.pixelStride);
    OffsetWithoutOverflow(f.height / 2 / 2, f.width / 2 / 2, f.u.rowStride, f.u.pixelStride);
  }

  /**
   * When the offsets are in range the result is the conversion of the centre
   * luma byte and the chroma bytes of the U and V planes at the one chroma
   * offset, each read unsigned and the chroma biased by -128.
   */
  lemma CentreSample(f: Frame)
    requires InBounds(f.y, LumaOffset(f)) && InBounds(f.u, ChromaOffset(f)) && InBounds(f.v, ChromaOffset(f))
    ensures var y := Unsigned(f.y.buffer[LumaOffset(f)]);
      var u := Unsigned(f.u.buffer[ChromaOffset(f)]) - 128;
      var v := Unsigned(f.v.buffer[ChromaOffset(f)]) - 128;
      && 0 <= y <= 255 && -128 <= u <= 127 && -128 <= v <= 127
      && ExtractCenterColor(f) == Success(YuvToRgb(y, u, v))
  {
  }

  // ---------------------------------------------------------------------
  // The conversion

  /** `Double.toInt()` on an exact real: truncation toward zero. */
  function TruncReal(x: real): int {
    if x >= 0.0 then x.Floor else -((-x).Floor)
  }

  /** The transform of `extractCenterColor` over its exact decimal coefficients. */
  function YuvToRgbExact(y: int, u: int, v: int): Color {
    var yr, ur, vr := y as real, u as real, v as real;
    Color(
      Clamp(TruncReal(yr + 1.370705 * vr)),
      Clamp(TruncReal(yr - 0.337633 * ur - 0.698001 * vr)),
      Clamp(TruncReal(yr + 1.732446 * ur)))
  }

  lemma FloorOfQuotient(n: nat, d: int)
    requires d > 0
    ensures (n as real / d as real).Floor == n / d
  {
    var q, r := n / d, n % d;
    assert n == q * d + r;
    assert n as real / d as real == q as real + r as real / d as real;
    assert 0.0 <= r as real / d as real < 1.0;
  }

  /** Truncating `n / SCALE` agrees with truncating the exact real quotient. */
  lemma TruncDivIsTruncReal(n: int)
    ensures TruncDiv(n, SCALE) == TruncReal(n as real / SCALE as real)
  {
    if n >= 0 {
      FloorOfQuotient(n, SCALE);
    } else {
      FloorOfQuotient(-n, SCALE);
      assert -(n as real / SCALE as real) == (-n) as real / SCALE as real;
    }
  }

  /** The integer arithmetic computes the exact-coefficient transform. */
  lemma YuvToRgbIsExact(y: int, u: int, v: int)
    ensures YuvToRgb(y, u, v) == YuvToRgbExact(y, u, v)
  {
    RedIsExact(y, v);
    GreenIsExact(y, u, v);
    BlueIsExact(y, u);
  }

  lemma RedIsExact(y: int, v: int)
    ensures RedUnclamped(y, v) == TruncReal(y as real + 1.370705 * v as real)
  {
    TruncDivIsTruncReal(y * SCALE + V_TO_R * v);
    assert (y * SCALE + V_TO_R * v) as real / SCALE as real == y as real + 1.370705 * v as real;
  }

  lemma GreenIsExact(y: int, u: int, v: int)
    ensures GreenUnclamped(y, u, v) == TruncReal(y as real - 0.337633 * u as real - 0.698001 * v as real)
  {
    TruncDivIsTruncReal(y * SCALE - U_TO_G * u - V_TO_G * v);
    assert (y * SCALE - U_TO_G * u - V_TO_G * v) as real / SCALE as real
      == y as real - 0.337633 * u as real - 0.698001 * v as real;
  }

  lemma BlueIsExact(y: int, u: int)
    ensures BlueUnclamped(y, u) == TruncReal(y as real + 1.732446 * u as real)
  {
    TruncDivIsTruncReal(y * SCALE + U_TO_B * u);
    assert (y * SCALE + U_TO_B * u) as real / SCALE as real == y as real + 1.732446 * u as real;
  }

  /** Neutral chroma gives the grey of the luma. */
  lemma NeutralChromaIsGrey(y: int)
    requires 0 <= y <= 255
    ensures YuvToRgb(y, 0, 0) == Color(y, y, y)
  {
    assert RedUnclamped(y, 0) == y;
    assert GreenUnclamped(y, 0, 0) == y;
    assert BlueUnclamped(y, 0) == y;
  }

  lemma WhiteAndBlack()
    ensures YuvToRgb(255, 0, 0) == WHITE
    ensures YuvToRgb(0, 0, 0) == Color(0, 0, 0)
  {
    NeutralChromaIsGrey(255);
    NeutralChromaIsGrey(0);
  }

  /** Saturated red: the unclamped value is 374, the channel is 255. */
  lemma RedSaturates()
    ensures RedUnclamped(200, 127) == 374
    ensures YuvToRgb(200, 0, 127).red == 255
  {
  }

  /** More luma never darkens any channel. */
  lemma BrighterLuma(y1: int, y2: int, u: int, v: int)
    requires y1 <= y2
    ensures YuvToRgb(y1, u, v).red <= YuvToRgb(y2, u, v).red
    ensures YuvToRgb(y1, u, v).green <= YuvToRgb(y2, u, v).green
    ensures YuvToRgb(y1, u, v).blue <= YuvToRgb(y2, u, v).blue
  {
    TruncDivMonotone(y1 * SCALE + V_TO_R * v, y2 * SCALE + V_TO_R * v);
    TruncDivMonotone(y1 * SCALE - U_TO_G * u - V_TO_G * v, y2 * SCALE - U_TO_G * u - V_TO_G * v);
    TruncDivMonotone(y1 * SCALE + U_TO_B * u, y2 * SCALE + U_TO_B * u);
  }

  lemma TruncDivMonotone(a: int, b: int)
    requires a <= b
    ensures TruncDiv(a, SCALE) <= TruncDiv(b, SCALE)
  {
  }

  /**
   * A negative value clamps to zero whichever way it was rounded, so
   * truncating toward zero and rounding down give the same channel.
   */
  lemma RoundingDirectionInvisible(n: int)
    ensures Clamp(TruncDiv(n, SCALE)) == Clamp(n / SCALE)
  {
  }
}

=== FILE: color_repository.dfy ===
/**
 * The recent-colour history kept by `ColorRepository`: a list of packed
 * colour codes stored under one preferences key as comma-joined decimals,
 * newest first, at most five, without repeats.
 *
 * The preferences store is a map from key to string; each `edit` block is a
 * pure function from the old map to the new one.
 */
module ColorRepository {
  import opened Wrappers
  import opened Text

  const RECENT_COLORS_KEY: string := "recent_colors"
  const MAX_RECENT: nat := 5

  type Preferences = map<string, string>

  predicate NoDuplicates(xs: seq<Long>) {
    forall i, j :: 0 <= i < j < |xs| ==> xs[i] != xs[j]
  }

  function Lookup(prefs: Preferences, key: string): Option<string> {
    if key in prefs then Some(prefs[key]) else None
  }

  /** `mapNotNull { it.toLongOrNull() }` over the split tokens. */
  function ParseTokens(tokens: seq<string>): (values: seq<Long>)
    ensures |values| <= |tokens|
  {
    if |tokens| == 0 then []
    else
      match ParseLong(tokens[0])
      case Some(v) => [v] + ParseTokens(tokens[1..])
      case None => ParseTokens(tokens[1..])
  }

  /** The list read from a stored value (absent means the empty string). */
  function DecodeColors(stored: Option<string>): (colors: seq<Long>)
    ensures stored == None || stored == Some("") ==> colors == []
  {
    var s := stored.GetOr("");
    if |s| == 0 then [] else ParseTokens(Split(s, ','))
  }

  /** `colors.joinToString(",")`. */
  function EncodeColors(colors: seq<Long>): (s: string)
    ensures |s| == 0 <==> |colors| == 0
  {
    if |colors| == 0 then ""
    else if |colors| == 1 then IntToDecimal(colors[0])
    else IntToDecimal(colors[0]) + [','] + EncodeColors(colors[1..])
  }

  /** What `recentColorsFlow` emits for a given state of the store. */
  function RecentColors(prefs: Preferences): (colors: seq<Long>)
    ensures Lookup(prefs, RECENT_COLORS_KEY) == None ==> colors == []
    ensures Lookup(prefs, RECENT_COLORS_KEY) == Some("") ==> colors == []
  {
    DecodeColors(Lookup(prefs, RECENT_COLORS_KEY))
  }

  /** All of `xs` except the elements equal to `x`, in order. */
  function Without(xs: seq<Long>, x: Long): (r: seq<Long>)
    ensures |r| <= |xs|
    ensures forall y :: y in r <==> y in xs && y != x
  {
    if |xs| == 0 then []
    else if xs[0] == x then Without(xs[1..], x)
    else [xs[0]] + Without(xs[1..], x)
  }

  /** Where `x` first occurs in `xs`. */
  function FirstIndex(xs: seq<Long>, x: Long): (i: nat)
    requires x in xs
    ensures i < |xs| && xs[i] == x && x !in xs[..i]
  {
    if xs[0] == x then 0 else 1 + FirstIndex(xs[1..], x)
  }

  /**
   * Kotlin `distinct()` walks the list keeping each element the first time it
   * is met; `seen` holds the elements already kept. The result has each
   * element not yet seen once, in the order of its first occurrence.
   */
  function DistinctFrom(xs: seq<Long>, seen: set<Long>): (r: seq<Long>)
    ensures NoDuplicates(r)
    ensures forall y :: y in r <==> y in xs && y !in seen
    ensures forall i, j :: 0 <= i < j < |r| ==> FirstIndex(xs, r[i]) < FirstIndex(xs, r[j])
    ensures |r| <= |xs|
  {
    if |xs| == 0 then []
    else
      var rest := DistinctFrom(xs[1..], if xs[0] in seen then seen else seen + {xs[0]});
      FirstIndexAfterHead(xs, rest);
      if xs[0] in seen then rest else [xs[0]] + rest
  }

  /** Past the head, first occurrences shift by one. */
  lemma FirstIndexAfterHead(xs: seq<Long>, ys: seq<Long>)
    requires |xs| > 0
    requires forall y :: y in ys ==> y in xs[1..] && y != xs[0]
    ensures forall y :: y in ys ==> y in xs && FirstIndex(xs, y) == 1 + FirstIndex(xs[1..], y)
  {
    forall y | y in ys
      ensures y in xs && FirstIndex(xs, y) == 1 + FirstIndex(xs[1..], y)
    {
      assert xs == [xs[0]] + xs[1..];
    }
  }

  function Distinct(xs: seq<Long>): seq<Long> {
    DistinctFrom(xs, {})
  }

  /** Kotlin `take(n)`: the first `n` elements, or all of them when there are fewer. */
  function Take(xs: seq<Long>, n: nat): (r: seq<Long>)
    ensures |r| == if |xs| <= n then |xs| else n
    ensures r == xs[..|r|]
  {
    if |xs| <= n then xs else xs[..n]
  }

  /**
   * The history policy of `addRecentColor`:
   * `(listOf(color) + current).distinct().take(5)`.
   */
  function InsertRecent(current: seq<Long>, color: Long): (r: seq<Long>)
    ensures 0 < |r| <= MAX_RECENT
    ensures r[0] == color
    ensures NoDuplicates(r)
    ensures forall y :: y in r ==> y == color || y in current
    ensures r[1..] == Take(Without(Distinct(current), color), MAX_RECENT - 1)
  {
    MoveToFront(current, color);
    Take(Distinct([color] + current), MAX_RECENT)
  }

  /** `saveRecentColors`: overwrite the key with the joined list. */
  function SaveRecentColors(prefs: Preferences, colors: seq<Long>): (r: Preferences)
    ensures Lookup(r, RECENT_COLORS_KEY) == Some(Join(DecimalTokens(colors), ','))
    ensures RecentColors(r) == colors
    ensures forall k :: k != RECENT_COLORS_KEY ==> Lookup(r, k) == Lookup(prefs, k)
  {
    EncodeIsJoin(colors);
    DecodeEncode(colors);
    prefs[RECENT_COLORS_KEY := EncodeColors(colors)]
  }

  /** `addRecentColor`: read, insert, write back, under one key. */
  function AddRecentColor(prefs: Preferences, color: Long): (r: Preferences)
    ensures var stored := RecentColors(r);
      && 0 < |stored| <= MAX_RECENT
      && stored[0] == color
      && NoDuplicates(stored)
      && (forall y :: y in stored ==> y == color || y in RecentColors(prefs))
    ensures Lookup(r, RECENT_COLORS_KEY) == Some(Join(DecimalTokens(RecentColors(r)), ','))
    ensures forall k :: k != RECENT_COLORS_KEY ==> Lookup(r, k) == Lookup(prefs, k)
  {
    SaveRecentColors(prefs, InsertRecent(RecentColors(prefs), color))
  }

  // ---------------------------------------------------------------------
  // Encoding

  lemma {:induction false} EncodeIsJoin(colors: seq<Long>)
    ensures EncodeColors(colors) == Join(DecimalTokens(colors), ',')
  {
    if |colors| > 1 {
      EncodeIsJoin(colors[1..]);
      assert DecimalTokens(colors)[1..] == DecimalTokens(colors[1..]);
    }
  }

  function DecimalTokens(colors: seq<Long>): (ts: seq<string>)
    ensures |ts| == |colors|
    ensures forall i :: 0 <= i < |ts| ==> ts[i] == IntToDecimal(colors[i])
  {
    if |colors| == 0 then [] else [IntToDecimal(colors[0])] + DecimalTokens(colors[1..])
  }

  lemma {:induction false} ParseDecimalTokens(colors: seq<Long>)
    ensures ParseTokens(DecimalTokens(colors)) == colors
  {
    if |colors| > 0 {
      ParseLongOfDecimal(colors[0]);
      assert DecimalTokens(colors)[1..] == DecimalTokens(colors[1..]);
      ParseDecimalTokens(colors[1..]);
    }
  }

  /** Round trip: the stored string reads back as exactly the list written. */
  lemma DecodeEncode(colors: seq<Long>)
    ensures DecodeColors(Some(EncodeColors(colors))) == colors
  {
    if |colors| > 0 {
      EncodeIsJoin(colors);
      SplitJoin(DecimalTokens(colors), ',');
      ParseDecimalTokens(colors);
    }
  }

  // ---------------------------------------------------------------------
  // Decoding keeps exactly the tokens that parse, in order

  lemma {:induction false} ParseTokensAppend(a: seq<string>, b: seq<string>)
    ensures ParseTokens(a + b) == ParseTokens(a) + ParseTokens(b)
  {
    if |a| > 0 {
      var ab := a + b;
      assert ab[0] == a[0];
      assert ab[1..] == a[1..] + b;
      ParseTokensAppend(a[1..], b);
      var rest := ParseTokens(a[1..]);
      match ParseLong(a[0])
      case Some(v) =>
        assert ParseTokens(ab) == [v] + (rest + ParseTokens(b));
        assert ParseTokens(a) == [v] + rest;
      case None =>
        assert ParseTokens(ab) == rest + ParseTokens(b);
        assert ParseTokens(a) == rest;
    } else {
      assert a + b == b;
    }
  }

  /** One token contributes its value when it parses and nothing otherwise. */
  lemma ParseTokensSingle(t: string)
    ensures ParseTokens([t]) == if ParseLong(t).Some? then [ParseLong(t).value] else []
  {
    assert [t][1..] == [];
  }

  lemma {:induction false} ParseTokensMembers(tokens: seq<string>, x: Long)
    ensures x in ParseTokens(tokens) <==> exists i :: 0 <= i < |tokens| && ParseLong(tokens[i]) == Some(x)
  {
    if |tokens| > 0 {
      ParseTokensMembers(tokens[1..], x);
      if ParseLong(tokens[0]) == Some(x) {
        assert 0 < |tokens|;
      }
      if exists i :: 0 <= i < |tokens| && ParseLong(tokens[i]) == Some(x) {
        var i :| 0 <= i < |tokens| && ParseLong(tokens[i]) == Some(x);
        if i > 0 {
          assert ParseLong(tokens[1..][i - 1]) == Some(x);
        }
      }
      if exists i :: 0 <= i < |tokens[1..]| && ParseLong(tokens[1..][i]) == Some(x) {
        var i :| 0 <= i < |tokens[1..]| && ParseLong(tokens[1..][i]) == Some(x);
        assert ParseLong(tokens[i + 1]) == Some(x);
      }
    }
  }

  /**
   * Decoding a non-empty stored string yields a value for each comma-separated
   * token that parses and nothing for the others: appending one more token to
   * the stored string appends its value, or nothing, to the decoded list.
   */
  lemma DecodeAppendToken(s: string, t: string)
    requires |s| > 0
    requires ',' !in t
    ensures DecodeColors(Some(s + [','] + t)) == DecodeColors(Some(s)) + ParseTokens([t])
  {
    SplitConcat(s, ',', t);
    SplitWithoutSeparator(t, ',');
    ParseTokensAppend(Split(s, ','), [t]);
  }

  // ---------------------------------------------------------------------
  // The insertion policy

  lemma {:induction false} WithoutAbsent(xs: seq<Long>, x: Long)
    requires x !in xs
    ensures Without(xs, x) == xs
  {
    if |xs| > 0 {
      WithoutAbsent(xs[1..], x);
      assert [xs[0]] + xs[1..] == xs;
    }
  }

  /** Marking one more element as seen removes exactly that element. */
  lemma {:induction false} DistinctFromSeenOneMore(xs: seq<Long>, seen: set<Long>, x: Long)
    ensures DistinctFrom(xs, seen + {x}) == Without(DistinctFrom(xs, seen), x)
  {
    if |xs| > 0 {
      var h := xs[0];
      if h in seen {
        DistinctFromSeenOneMore(xs[1..], seen, x);
      } else if h == x {
        WithoutAbsent(DistinctFrom(xs[1..], seen + {x}), x);
      } else {
        DistinctFromSeenOneMore(xs[1..], seen + {h}, x);
        assert seen + {h} + {x} == seen + {x} + {h};
      }
    }
  }

  /**
   * Inserting moves the colour to the front: the others keep their first
   * occurrences in their prior relative order.
   */
  lemma MoveToFront(current: seq<Long>, color: Long)
    ensures Distinct([color] + current) == [color] + Without(Distinct(current), color)
  {
    assert ([color] + current)[1..] == current;
    assert {} + {color} == {color};
    DistinctFromSeenOneMore(current, {}, color);
  }

  /** A list without repeats is its own `distinct()`. */
  lemma {:induction false} DistinctOfDistinct(xs: seq<Long>, seen: set<Long>)
    requires NoDuplicates(xs)
    requires forall y :: y in xs ==> y !in seen
    ensures DistinctFrom(xs, seen) == xs
  {
    if |xs| > 0 {
      var h, tail := xs[0], xs[1..];
      UnseenTail(xs, seen);
      DistinctOfDistinct(tail, seen + {h});
      assert DistinctFrom(xs, seen) == [h] + DistinctFrom(tail, seen + {h});
      assert [h] + tail == xs;
    }
  }

  /** Past the head of a list without repeats, nothing repeats and the head counts as seen. */
  lemma UnseenTail(xs: seq<Long>, seen: set<Long>)
    requires |xs| > 0 && NoDuplicates(xs)
    requires forall y :: y in xs ==> y !in seen
    ensures xs[0] !in seen && NoDuplicates(xs[1..])
    ensures forall y :: y in xs[1..] ==> y !in seen + {xs[0]}
  {
    var h, tail := xs[0], xs[1..];
    assert NoDuplicates(tail) by {
      forall i, j | 0 <= i < j < |tail| ensures tail[i] != tail[j] {
        assert tail[i] == xs[i + 1] && tail[j] == xs[j + 1];
      }
    }
    forall y | y in tail ensures y !in seen + {h} {
      var k :| 0 <= k < |tail| && tail[k] == y;
      assert xs[k + 1] == y;
    }
  }

  /** Example: with history [B, A], inserting A gives [A, B]. */
  lemma ReinsertExample(a: Long, b: Long)
    requires a != b
    ensures InsertRecent([b, a], a) == [a, b]
  {
    var r := InsertRecent([b, a], a);
    PairWithoutSecond(a, b);
    assert r[1..] == [b];
    assert r == [r[0]] + r[1..];
  }

  lemma PairWithoutSecond(a: Long, b: Long)
    requires a != b
    ensures Take(Without(Distinct([b, a]), a), MAX_RECENT - 1) == [b]
  {
    DistinctOfDistinct([b, a], {});
    assert [b, a][1..] == [a] && [a][1..] == [];
  }

  /** `addRecentColor` called once per colour, in order. */
  function AddRecentColors(prefs: Preferences, colors: seq<Long>): Preferences
    decreases |colors|
  {
    if |colors| == 0 then prefs else AddRecentColors(AddRecentColor(prefs, colors[0]), colors[1..])
  }

  function Reverse(xs: seq<Long>): (r: seq<Long>)
    ensures |r| == |xs|
  {
    if |xs| == 0 then [] else Reverse(xs[1..]) + [xs[0]]
  }

  lemma TakeAfterTake(x: seq<Long>, y: seq<Long>, n: nat)
    ensures Take(x + Take(y, n), n) == Take(x + y, n)
  {
    if |y| > n {
      assert x + y[..n] == (x + y)[..|x| + n];
    }
  }

  lemma NoDuplicatesSuffix(xs: seq<Long>, k: nat)
    requires k <= |xs|
    requires NoDuplicates(xs)
    ensures NoDuplicates(xs[k..])
  {
    forall i, j | 0 <= i < j < |xs| - k ensures xs[k..][i] != xs[k..][j] {
      assert xs[k..][i] == xs[k + i] && xs[k..][j] == xs[k + j];
    }
  }

  lemma NoDuplicatesPrefix(xs: seq<Long>, k: nat)
    requires k <= |xs|
    requires NoDuplicates(xs)
    ensures NoDuplicates(xs[..k])
  {
  }

  /** The history policy applied once per colour, in order. */
  function InsertAll(history: seq<Long>, colors: seq<Long>): seq<Long>
    decreases |colors|
  {
    if |colors| == 0 then history else InsertAll(InsertRecent(history, colors[0]), colors[1..])
  }

  /** The store follows the history policy: each `addRecentColor` is one `InsertRecent`. */
  lemma {:induction false} StoreFollowsPolicy(prefs: Preferences, colors: seq<Long>)
    ensures RecentColors(AddRecentColors(prefs, colors)) == InsertAll(RecentColors(prefs), colors)
    decreases |colors|
  {
    if |colors| > 0 {
      var next := AddRecentColor(prefs, colors[0]);
      assert RecentColors(next) == InsertRecent(RecentColors(prefs), colors[0]);
      StoreFollowsPolicy(next, colors[1..]);
    }
  }

  /**
   * Adding colours that are all new to the history, and new to each other,
   * leaves the newest five: the added ones latest first, then the old entries.
   */
  lemma AddFreshColors(prefs: Preferences, colors: seq<Long>)
    requires |colors| > 0
    requires NoDuplicates(Reverse(colors) + RecentColors(prefs))
    ensures RecentColors(AddRecentColors(prefs, colors)) == Take(Reverse(colors) + RecentColors(prefs), MAX_RECENT)
  {
    StoreFollowsPolicy(prefs, colors);
    InsertFresh(RecentColors(prefs), colors);
  }

  lemma {:induction false} InsertFresh(history: seq<Long>, colors: seq<Long>)
    requires |colors| > 0
    requires NoDuplicates(Reverse(colors) + history)
    ensures InsertAll(history, colors) == Take(Reverse(colors) + history, MAX_RECENT)
    decreases |colors|
  {
    var c := colors[0];
    var rest := colors[1..];
    assert Reverse(colors) + history == Reverse(rest) + ([c] + history);
    FreshStep(history, c, Reverse(rest));
    var next := InsertRecent(history, c);
    if |rest| == 0 {
      assert InsertAll(next, rest) == next;
      assert Reverse(rest) + next == next;
    } else {
      InsertFresh(next, rest);
    }
  }

  /** Inserting a colour new to a history without repeats just puts it in front. */
  lemma InsertNew(history: seq<Long>, c: Long)
    requires NoDuplicates([c] + history)
    ensures InsertRecent(history, c) == Take([c] + history, MAX_RECENT)
  {
    DistinctOfDistinct([c] + history, {});
  }

  /** One step of `InsertFresh`: `later` are the colours still to come, newest first. */
  lemma FreshStep(history: seq<Long>, c: Long, later: seq<Long>)
    requires NoDuplicates(later + ([c] + history))
    ensures var next := InsertRecent(history, c);
      && NoDuplicates(later + next)
      && Take(later + next, MAX_RECENT) == Take(later + ([c] + history), MAX_RECENT)
  {
    var whole := later + ([c] + history);
    NoDuplicatesSuffix(whole, |later|);
    assert [c] + history == whole[|later|..];
    InsertNew(history, c);
    TakeAfterTake(later, [c] + history, MAX_RECENT);
    TakenPrefix(later, [c] + history);
  }

  /** Keeping the newest entries of a list without repeats, after any prefix, keeps it without repeats. */
  lemma TakenPrefix(later: seq<Long>, ys: seq<Long>)
    requires NoDuplicates(later + ys)
    ensures NoDuplicates(later + Take(ys, MAX_RECENT))
  {
    var whole := later + ys;
    var k := |later| + |Take(ys, MAX_RECENT)|;
    assert later + Take(ys, MAX_RECENT) == whole[..k];
    NoDuplicatesPrefix(whole, k);
  }

  lemma ReverseSix(a: Long, b: Long, c: Long, d: Long, e: Long, f: Long)
    ensures Reverse([a, b, c, d, e, f]) == [f, e, d, c, b, a]
  {
    assert Reverse([f]) == [f] by { assert [f][1..] == []; }
    assert Reverse([e, f]) == [f, e] by { assert [e, f][1..] == [f]; }
    assert Reverse([d, e, f]) == [f, e, d] by { assert [d, e, f][1..] == [e, f]; }
    assert Reverse([c, d, e, f]) == [f, e, d, c] by { assert [c, d, e, f][1..] == [d, e, f]; }
    assert Reverse([b, c, d, e, f]) == [f, e, d, c, b] by { assert [b, c, d, e, f][1..] == [c, d, e, f]; }
    assert [a, b, c, d, e, f][1..] == [b, c, d, e, f];
  }

  /** Six distinct colours added to an empty store leave the last five, newest first. */
  lemma SixInsertions(a: Long, b: Long, c: Long, d: Long, e: Long, f: Long)
    requires NoDuplicates([a, b, c, d, e, f])
    ensures RecentColors(AddRecentColors(map[], [a, b, c, d, e, f])) == [f, e, d, c, b]
  {
    var all := [a, b, c, d, e, f];
    assert all[0] == a && all[1] == b && all[2] == c && all[3] == d && all[4] == e && all[5] == f;
    assert RecentColors(map[]) == [];
    ReverseSix(a, b, c, d, e, f);
    assert Reverse(all) + [] == Reverse(all);
    AddFreshColors(map[], all);
  }
}

=== FILE: colors.dfy ===
/**
 * Colours as the app builds and prints them: three 8-bit channels, the packed
 * ARGB code the history store keeps, and the two labels shown on screen,
 * `#RRGGBB` and `RGB(r, g, b)`.
 */
module Colors {
  import opened Wrappers
  import opened Text

  type Channel = x: int | 0 <= x < 256

  /** A Compose `Color(red, green, blue)`; its alpha is always opaque. */
  datatype Color = Color(red: Channel, green: Channel, blue: Channel)

  const WHITE: Color := Color(255, 255, 255)

  const ARGB_MODULUS: int := 0x1_0000_0000

  /**
   * `color.toArgb().toLong()`: the 32-bit word 0xFFRRGGBB read as a signed
   * `Int` and widened. The opaque alpha sets the sign bit, so every code is
   * negative.
   */
  function ToArgb(c: Color): (argb: Long)
    ensures -0x100_0000 <= argb < 0
    ensures argb % ARGB_MODULUS == 0xFF00_0000 + c.red * 0x1_0000 + c.green * 0x100 + c.blue
  {
    0xFF00_0000 + c.red * 0x1_0000 + c.green * 0x100 + c.blue - ARGB_MODULUS
  }

  /** `Color(code.toInt())`: the low 32 bits as ARGB, of which the colour keeps RGB. */
  function FromArgb(argb: Long): Color {
    var bits := argb % ARGB_MODULUS;
    Color((bits / 0x1_0000) % 0x100, (bits / 0x100) % 0x100, bits % 0x100)
  }

  /** Reading back a packed code gives the colour that was packed. */
  lemma FromArgbToArgb(c: Color)
    ensures FromArgb(ToArgb(c)) == c
  {
    var bits := 0xFF00_0000 + c.red * 0x1_0000 + c.green * 0x100 + c.blue;
    assert ToArgb(c) % ARGB_MODULUS == bits;
    assert bits / 0x1_0000 == 0xFF00 + c.red;
    assert bits / 0x100 == 0xFF_0000 + c.red * 0x100 + c.green;
  }

  /** Distinct colours get distinct codes, so the history store never merges two colours. */
  lemma ToArgbInjective(a: Color, b: Color)
    ensures ToArgb(a) == ToArgb(b) <==> a == b
  {
    if ToArgb(a) == ToArgb(b) {
      FromArgbToArgb(a);
      FromArgbToArgb(b);
    }
  }

  // ---------------------------------------------------------------------
  // "#%02X%02X%02X"

  predicate IsUpperHexDigit(ch: char) {
    '0' <= ch <= '9' || 'A' <= ch <= 'F'
  }

  function HexDigit(d: int): (ch: char)
    requires 0 <= d < 16
    ensures IsUpperHexDigit(ch)
  {
    if d < 10 then ('0' as int + d) as char else ('A' as int + d - 10) as char
  }

  function HexDigitValue(ch: char): (d: int)
    requires IsUpperHexDigit(ch)
    ensures 0 <= d < 16
    ensures HexDigit(d) == ch
  {
    if ch <= '9' then ch as int - '0' as int else ch as int - 'A' as int + 10
  }

  /** `%02X` of a channel: two upper-case hex digits, high nibble first. */
  function HexPair(v: Channel): (s: string)
    ensures |s| == 2 && IsUpperHexDigit(s[0]) && IsUpperHexDigit(s[1])
    ensures HexDigitValue(s[0]) * 16 + HexDigitValue(s[1]) == v
  {
    [HexDigit(v / 16), HexDigit(v % 16)]
  }

  /** The `hexCode` label. */
  function HexCode(c: Color): (s: string)
    ensures |s| == 7 && s[0] == '#'
    ensures forall i :: 1 <= i < 7 ==> IsUpperHexDigit(s[i])
  {
    "#" + HexPair(c.red) + HexPair(c.green) + HexPair(c.blue)
  }

  /** Reads a `#RRGGBB` label with upper-case digits. */
  function ParseHexCode(s: string): Option<Color>
  {
    if |s| == 7 && s[0] == '#' && forall i :: 1 <= i < 7 ==> IsUpperHexDigit(s[i]) then
      Some(Color(
        HexDigitValue(s[1]) * 16 + HexDigitValue(s[2]),
        HexDigitValue(s[3]) * 16 + HexDigitValue(s[4]),
        HexDigitValue(s[5]) * 16 + HexDigitValue(s[6])))
    else None
  }

  /** The hex label names its colour: each digit pair is one channel, red first. */
  lemma ParseHexCodeOfHexCode(c: Color)
    ensures ParseHexCode(HexCode(c)) == Some(c)
  {
    var r, g, b := HexPair(c.red), HexPair(c.green), HexPair(c.blue);
    assert HexCode(c) == ['#', r[0], r[1], g[0], g[1], b[0], b[1]];
  }

  /** Every well-formed label is the label of exactly the colour it reads as. */
  lemma HexCodeOfParseHexCode(s: string)
    requires ParseHexCode(s).Some?
    ensures HexCode(ParseHexCode(s).value) == s
  {
    HexPairOfDigits(s[1], s[2]);
    HexPairOfDigits(s[3], s[4]);
    HexPairOfDigits(s[5], s[6]);
    assert s == ['#', s[1], s[2], s[3], s[4], s[5], s[6]];
  }

  /** Printing the value of a digit pair gives that pair back. */
  lemma HexPairOfDigits(a: char, b: char)
    requires IsUpperHexDigit(a) && IsUpperHexDigit(b)
    ensures HexPair(HexDigitValue(a) * 16 + HexDigitValue(b)) == [a, b]
  {
    var v := HexDigitValue(a) * 16 + HexDigitValue(b);
    assert v / 16 == HexDigitValue(a);
    assert v % 16 == HexDigitValue(b);
  }

  // ---------------------------------------------------------------------
  // "RGB(r, g, b)"

  /** The `rgbCode` label. */
  function RgbCode(c: Color): string {
    "RGB(" + IntToDecimal(c.red) + ", " + IntToDecimal(c.green) + ", " + IntToDecimal(c.blue) + ")"
  }

  /** Reads a channel written as `Int.toString()` writes it: no sign and no leading zeros. */
  function ParseChannel(t: string): Option<Channel> {
    if IsCanonicalDecimal(t) && DigitsValue(t) < 256 then Some(DigitsValue(t)) else None
  }

  /** Reads an `RGB(r, g, b)` label with decimal channels. */
  function ParseRgbCode(s: string): Option<Color>
  {
    if |s| >= 5 && s[..4] == "RGB(" && s[|s| - 1] == ')' then
      var parts := Split(s[4..|s| - 1], ',');
      if |parts| == 3 && |parts[1]| > 0 && parts[1][0] == ' ' && |parts[2]| > 0 && parts[2][0] == ' ' then
        match (ParseChannel(parts[0]), ParseChannel(parts[1][1..]), ParseChannel(parts[2][1..]))
        case (Some(r), Some(g), Some(b)) => Some(Color(r, g, b))
        case _ => None
      else None
    else None
  }

  /** The label splits at its commas into the three decimal channels. */
  lemma RgbCodePieces(c: Color)
    ensures var s := RgbCode(c);
      && |s| >= 5 && s[..4] == "RGB(" && s[|s| - 1] == ')'
      && Split(s[4..|s| - 1], ',') == [IntToDecimal(c.red), " " + IntToDecimal(c.green), " " + IntToDecimal(c.blue)]
  {
    var r, g, b := IntToDecimal(c.red), IntToDecimal(c.green), IntToDecimal(c.blue);
    var s := RgbCode(c);
    var inner := r + [','] + (" " + g) + [','] + (" " + b);
    assert s == "RGB(" + inner + ")";
    assert s[..4] == "RGB(";
    assert s[4..|s| - 1] == inner;
    var parts := [r, " " + g, " " + b];
    JoinThree(r, " " + g, " " + b);
    SplitJoin(parts, ',');
  }

  lemma JoinThree(x: string, y: string, z: string)
    ensures Join([x, y, z], ',') == x + [','] + y + [','] + z
  {
    var parts := [x, y, z];
    assert parts[1..] == [y, z];
    assert [y, z][1..] == [z];
    assert Join([y, z], ',') == y + [','] + z;
  }

  lemma ParseChannelOfDecimal(v: Channel)
    ensures ParseChannel(IntToDecimal(v)) == Some(v)
  {
  }

  /** A channel that reads back is written exactly as `Int.toString()` writes its value. */
  lemma DecimalOfParseChannel(t: string)
    requires ParseChannel(t).Some?
    ensures IntToDecimal(ParseChannel(t).value) == t
  {
    DecimalOfDigits(t);
  }

  /** The inside of a well-formed `RGB(...)` label is its three pieces joined by ", ". */
  lemma RgbInnerPieces(inner: string)
    requires var parts := Split(inner, ',');
      |parts| == 3 && |parts[1]| > 0 && parts[1][0] == ' ' && |parts[2]| > 0 && parts[2][0] == ' '
    ensures var parts := Split(inner, ',');
      inner == parts[0] + ", " + parts[1][1..] + ", " + parts[2][1..]
  {
    var parts := Split(inner, ',');
    JoinSplit(inner, ',');
    assert parts == [parts[0], parts[1], parts[2]];
    JoinThree(parts[0], parts[1], parts[2]);
    assert parts[1] == [' '] + parts[1][1..] && parts[2] == [' '] + parts[2][1..];
  }

  /**
   * Every label that reads as a colour is exactly that colour's label: the
   * reader accepts no second spelling of a colour.
   */
  lemma RgbCodeOfParseRgbCode(s: string)
    requires ParseRgbCode(s).Some?
    ensures RgbCode(ParseRgbCode(s).value) == s
  {
    var inner := s[4..|s| - 1];
    var parts := Split(inner, ',');
    var p, q, w := parts[0], parts[1][1..], parts[2][1..];
    RgbInnerPieces(inner);
    DecimalOfParseChannel(p);
    DecimalOfParseChannel(q);
    DecimalOfParseChannel(w);
    var c := ParseRgbCode(s).value;
    assert IntToDecimal(c.red) == p && IntToDecimal(c.green) == q && IntToDecimal(c.blue) == w;
    RgbBrackets(s);
    RgbRegroup(p, q, w);
  }

  lemma RgbBrackets(s: string)
    requires |s| >= 5 && s[..4] == "RGB(" && s[|s| - 1] == ')'
    ensures s == "RGB(" + s[4..|s| - 1] + ")"
  {
    assert s == s[..4] + s[4..|s| - 1] + [s[|s| - 1]];
  }

  lemma RgbRegroup(p: string, q: string, w: string)
    ensures "RGB(" + p + ", " + q + ", " + w + ")" == "RGB(" + (p + ", " + q + ", " + w) + ")"
  {
  }

  /** The decimal label names the same colour as the hex label. */
  lemma ParseRgbCodeOfRgbCode(c: Color)
    ensures ParseRgbCode(RgbCode(c)) == Some(c)
    ensures ParseRgbCode(RgbCode(c)) == ParseHexCode(HexCode(c))
  {
    var g, b := IntToDecimal(c.green), IntToDecimal(c.blue);
    RgbCodePieces(c);
    assert (" " + g)[1..] == g;
    assert (" " + b)[1..] == b;
    ParseChannelOfDecimal(c.red);
    ParseChannelOfDecimal(c.green);
    ParseChannelOfDecimal(c.blue);
    ParseHexCodeOfHexCode(c);
  }
}

=== FILE: main_view_model.dfy ===
/**
 * `MainViewModel` and its `ColorUiState`: every public operation is a record
 * update of the state, plus the repository calls it launches. The calls are
 * returned as `Request`s; the order in which launched coroutines run is not
 * part of this model.
 */
module MainViewModel {
  import opened Wrappers
  import opened Text
  import opened Colors
  import ColorRepository

  datatype ColorUiState = ColorUiState(
    currentColor: Color,
    hexCode: string,
    rgbCode: string,
    brightness: real,
    history: seq<Color>,
    savedColors: seq<Color>,
    deleteCandidate: Option<Color>)

  /** A repository call, carrying the packed colour code it is given. */
  datatype Request =
    | AddRecentColor(argb: Long)
    | AddSavedColor(argb: Long)
    | RemoveSavedColor(argb: Long)

  /** The state after an operation, and the repository calls it launched. */
  datatype Step = Step(state: ColorUiState, requests: seq<Request>)

  /** The two labels describe the current colour. */
  predicate LabelsMatch(s: ColorUiState) {
    ParseHexCode(s.hexCode) == Some(s.currentColor) && ParseRgbCode(s.rgbCode) == Some(s.currentColor)
  }

  /** Labels that read as the current colour are exactly the labels `updateColor` writes for it. */
  lemma LabelsDetermined(s: ColorUiState)
    ensures LabelsMatch(s) <==> s.hexCode == HexCode(s.currentColor) && s.rgbCode == RgbCode(s.currentColor)
  {
    if LabelsMatch(s) {
      HexCodeOfParseHexCode(s.hexCode);
      RgbCodeOfParseRgbCode(s.rgbCode);
    }
    ParseHexCodeOfHexCode(s.currentColor);
    ParseRgbCodeOfRgbCode(s.currentColor);
  }

  /** The default labels are those of white. */
  lemma WhiteLabels()
    ensures HexCode(WHITE) == "#FFFFFF"
    ensures RgbCode(WHITE) == "RGB(255, 255, 255)"
  {
    assert HexPair(255) == "FF";
    assert NatToDecimal(255) == "255" by {
      assert NatToDecimal(25) == "25" by { assert NatToDecimal(2) == "2"; }
    }
  }

  /** `ColorUiState()`: the state before anything happens. */
  function DefaultState(): (s: ColorUiState)
    ensures s.currentColor == WHITE && s.brightness == 1.0
    ensures s.history == [] && s.savedColors == [] && s.deleteCandidate == None
    ensures LabelsMatch(s)
  {
    var s := ColorUiState(WHITE, "#FFFFFF", "RGB(255, 255, 255)", 1.0, [], [], None);
    WhiteLabels();
    ParseHexCodeOfHexCode(WHITE);
    ParseRgbCodeOfRgbCode(WHITE);
    s
  }

  /**
   * The private `updateColor`: show the colour, relabel it, drop the delete
   * candidate, and ask for a history insert when `addToHistory` is set.
   */
  function UpdateColor(s: ColorUiState, color: Color, addToHistory: bool): (r: Step)
    ensures r.state.currentColor == color && LabelsMatch(r.state)
    ensures r.state.hexCode == HexCode(color) && r.state.rgbCode == RgbCode(color)
    ensures r.state.deleteCandidate == None
    ensures r.state.brightness == s.brightness
    ensures r.state.history == s.history && r.state.savedColors == s.savedColors
    ensures addToHistory ==> r.requests == [AddRecentColor(ToArgb(color))] && FromArgb(r.requests[0].argb) == color
    ensures !addToHistory ==> r.requests == []
  {
    ParseHexCodeOfHexCode(color);
    ParseRgbCodeOfRgbCode(color);
    FromArgbToArgb(color);
    var state := s.(currentColor := color, hexCode := HexCode(color), rgbCode := RgbCode(color), deleteCandidate := None);
    Step(state, if addToHistory then [AddRecentColor(ToArgb(color))] else [])
  }

  /**
   * `generateNewColor(addToHistory)`: the three `Random.nextInt(256)` draws
   * are the inputs `red`, `green` and `blue`.
   */
  function GenerateNewColor(s: ColorUiState, red: int, green: int, blue: int, addToHistory: bool := true): (r: Step)
    requires 0 <= red < 256 && 0 <= green < 256 && 0 <= blue < 256
    ensures var c := r.state.currentColor;
      c.red == red && c.green == green && c.blue == blue
    ensures LabelsMatch(r.state)
    ensures addToHistory ==> |r.requests| == 1 && r.requests[0] == AddRecentColor(ToArgb(r.state.currentColor))
    ensures !addToHistory ==> r.requests == []
    ensures r.state.deleteCandidate == None && r.state.brightness == s.brightness
    ensures r.state.history == s.history && r.state.savedColors == s.savedColors
  {
    UpdateColor(s, Color(red, green, blue), addToHistory)
  }

  /** `restoreColor`: show a colour from a list without touching the history. */
  function RestoreColor(s: ColorUiState, color: Color): (r: Step)
    ensures r.requests == []
    ensures r.state.currentColor == color && LabelsMatch(r.state) && r.state.deleteCandidate == None
    ensures r.state.history == s.history
    ensures r.state.brightness == s.brightness && r.state.savedColors == s.savedColors
  {
    UpdateColor(s, color, false)
  }

  /** `updateBrightness`: only the brightness changes. */
  function UpdateBrightness(s: ColorUiState, brightness: real): (r: ColorUiState)
    ensures r.brightness == brightness
    ensures r.(brightness := s.brightness) == s
  {
    s.(brightness := brightness)
  }

  /** `setDeleteCandidate`: only the candidate changes. */
  function SetDeleteCandidate(s: ColorUiState, color: Option<Color>): (r: ColorUiState)
    ensures r.deleteCandidate == color
    ensures r.(deleteCandidate := s.deleteCandidate) == s
  {
    s.(deleteCandidate := color)
  }

  /** `bookmarkColor`: ask the repository to save the current colour. */
  function BookmarkColor(s: ColorUiState): (r: Step)
    ensures r.state == s
    ensures r.requests == [AddSavedColor(ToArgb(s.currentColor))] && FromArgb(r.requests[0].argb) == s.currentColor
  {
    FromArgbToArgb(s.currentColor);
    Step(s, [AddSavedColor(ToArgb(s.currentColor))])
  }

  /**
   * `deleteSavedColor`: ask the repository to remove the colour, and clear the
   * delete candidate only when it is that colour.
   */
  function DeleteSavedColor(s: ColorUiState, color: Color): (r: Step)
    ensures r.requests == [RemoveSavedColor(ToArgb(color))] && FromArgb(r.requests[0].argb) == color
    ensures s.deleteCandidate == Some(color) ==> r.state.deleteCandidate == None
    ensures s.deleteCandidate != Some(color) ==> r.state.deleteCandidate == s.deleteCandidate
    ensures r.state.(deleteCandidate := s.deleteCandidate) == s
  {
    FromArgbToArgb(color);
    var state := if s.deleteCandidate == Some(color) then SetDeleteCandidate(s, None) else s;
    Step(state, [RemoveSavedColor(ToArgb(color))])
  }

  function ColorsOf(codes: seq<Long>): (colors: seq<Color>)
    ensures |colors| == |codes|
    ensures forall i :: 0 <= i < |codes| ==> colors[i] == FromArgb(codes[i])
  {
    seq(|codes|, i requires 0 <= i < |codes| => FromArgb(codes[i]))
  }

  /** The collector of `recentColorsFlow`: the history shows the stored codes. */
  function HistoryChanged(s: ColorUiState, codes: seq<Long>): (r: ColorUiState)
    ensures |r.history| == |codes|
    ensures forall i :: 0 <= i < |codes| ==> r.history[i] == FromArgb(codes[i])
    ensures r.(history := s.history) == s
  {
    s.(history := ColorsOf(codes))
  }

  /** The collector of `savedColorsFlow`: the saved list shows the stored codes. */
  function SavedColorsChanged(s: ColorUiState, codes: seq<Long>): (r: ColorUiState)
    ensures |r.savedColors| == |codes|
    ensures forall i :: 0 <= i < |codes| ==> r.savedColors[i] == FromArgb(codes[i])
    ensures r.(savedColors := s.savedColors) == s
  {
    s.(savedColors := ColorsOf(codes))
  }

  /** The view model's start: a default state, then `generateNewColor(addToHistory = true)`. */
  function Init(red: int, green: int, blue: int): (r: Step)
    requires 0 <= red < 256 && 0 <= green < 256 && 0 <= blue < 256
    ensures r.state.currentColor == Color(red, green, blue)
    ensures r.state.brightness == 1.0 && r.state.history == [] && r.state.savedColors == []
    ensures r.state.deleteCandidate == None
    ensures r.requests == [AddRecentColor(ToArgb(Color(red, green, blue)))]
  {
    GenerateNewColor(DefaultState(), red, green, blue)
  }

  // ---------------------------------------------------------------------
  // All operations together

  datatype Action =
    | Generate(red: Channel, green: Channel, blue: Channel, addToHistory: bool)
    | Restore(color: Color)
    | Brightness(value: real)
    | Bookmark
    | SetCandidate(candidate: Option<Color>)
    | DeleteSaved(color: Color)
    | RecentLoaded(codes: seq<Long>)
    | SavedLoaded(codes: seq<Long>)

  function Apply(s: ColorUiState, a: Action): Step {
    match a
    case Generate(red, green, blue, add) => GenerateNewColor(s, red, green, blue, add)
    case Restore(c) => RestoreColor(s, c)
    case Brightness(b) => Step(UpdateBrightness(s, b), [])
    case Bookmark => BookmarkColor(s)
    case SetCandidate(c) => Step(SetDeleteCandidate(s, c), [])
    case DeleteSaved(c) => DeleteSavedColor(s, c)
    case RecentLoaded(codes) => Step(HistoryChanged(s, codes), [])
    case SavedLoaded(codes) => Step(SavedColorsChanged(s, codes), [])
  }

  /** No operation ever leaves a label that disagrees with the shown colour. */
  lemma LabelsAlwaysMatch(s: ColorUiState, a: Action)
    requires LabelsMatch(s)
    ensures LabelsMatch(Apply(s, a).state)
  {
    match a
    case Generate(red, green, blue, add) =>
    case Restore(c) =>
    case Brightness(b) =>
      assert Apply(s, a).state.(brightness := s.brightness) == s;
    case Bookmark =>
    case SetCandidate(c) =>
      assert Apply(s, a).state.(deleteCandidate := s.deleteCandidate) == s;
    case DeleteSaved(c) =>
      assert Apply(s, a).state.(deleteCandidate := s.deleteCandidate) == s;
    case RecentLoaded(codes) =>
      assert Apply(s, a).state.(history := s.history) == s;
    case SavedLoaded(codes) =>
      assert Apply(s, a).state.(savedColors := s.savedColors) == s;
  }

  /** Only generating a colour with `addToHistory` asks for a history insert. */
  lemma OnlyGenerateAddsHistory(s: ColorUiState, a: Action)
    ensures (exists i :: 0 <= i < |Apply(s, a).requests| && Apply(s, a).requests[i].AddRecentColor?)
        <==> a.Generate? && a.addToHistory
  {
    var r := Apply(s, a);
    if a.Generate? && a.addToHistory {
      assert r.requests[0].AddRecentColor?;
    }
  }

  /** Only `updateColor` changes the shown colour; the other operations keep it. */
  lemma ColorChangesOnlyWhenChosen(s: ColorUiState, a: Action)
    requires !a.Generate? && !a.Restore?
    ensures Apply(s, a).state.currentColor == s.currentColor
    ensures Apply(s, a).state.hexCode == s.hexCode && Apply(s, a).state.rgbCode == s.rgbCode
  {
  }

  /**
   * A generated colour, once its insert has gone through the repository and
   * the history collector, is the first entry of the shown history.
   */
  lemma GeneratedColorHeadsHistory(s: ColorUiState, prefs: ColorRepository.Preferences, red: int, green: int, blue: int)
    requires 0 <= red < 256 && 0 <= green < 256 && 0 <= blue < 256
    ensures var step := GenerateNewColor(s, red, green, blue);
      var stored := ColorRepository.AddRecentColor(prefs, step.requests[0].argb);
      var shown := HistoryChanged(step.state, ColorRepository.RecentColors(stored));
      && 0 < |shown.history| <= ColorRepository.MAX_RECENT
      && shown.history[0] == shown.currentColor == Color(red, green, blue)
  {
    FromArgbToArgb(Color(red, green, blue));
  }
}

=== FILE: text.dfy ===
/**
 * The pieces of the Kotlin standard library that the colour picker leans on
 * for its text formats: `split(",")`, `joinToString(",")`, decimal
 * `toString()` and `toLongOrNull()`.
 */
module Text {
  import opened Wrappers

  const LONG_MIN: int := -0x8000_0000_0000_0000
  const LONG_MAX: int := 0x7FFF_FFFF_FFFF_FFFF

  /** A Kotlin `Long`. */
  type Long = x: int | LONG_MIN <= x <= LONG_MAX

  predicate IsDigit(c: char) {
    '0' <= c <= '9'
  }

  predicate AllDigits(s: string) {
    forall i :: 0 <= i < |s| ==> IsDigit(s[i])
  }

  function DigitChar(d: int): (c: char)
    requires 0 <= d < 10
    ensures IsDigit(c)
  {
    ('0' as int + d) as char
  }

  /** The value of a run of decimal digits, most significant first. */
  function DigitsValue(s: string): nat
    requires AllDigits(s)
  {
    if |s| == 0 then 0
    else DigitsValue(s[..|s| - 1]) * 10 + (s[|s| - 1] as int - '0' as int)
  }

  /** Decimal rendering of a non-negative number, without leading zeros. */
  function NatToDecimal(n: nat): (s: string)
    ensures |s| > 0 && AllDigits(s)
    ensures n > 0 ==> s[0] != '0'
  {
    if n < 10 then [DigitChar(n)] else NatToDecimal(n / 10) + [DigitChar(n % 10)]
  }

  /** `Long.toString()` / `Int.toString()`: a minus sign, then the magnitude. */
  function IntToDecimal(x: int): (s: string)
    ensures |s| > 0
    ensures ',' !in s
    ensures x >= 0 ==> AllDigits(s)
    ensures x >= 0 ==> IsCanonicalDecimal(s) && DigitsValue(s) == x
    ensures x < 0 ==> s[0] == '-' && IsCanonicalDecimal(s[1..]) && DigitsValue(s[1..]) == -x
  {
    if x < 0 then
      DigitsValueOfDecimal(-x);
      assert ("-" + NatToDecimal(-x))[1..] == NatToDecimal(-x);
      "-" + NatToDecimal(-x)
    else
      DigitsValueOfDecimal(x);
      NatToDecimal(x)
  }

  /** The digits of a numeral: everything after a leading sign, if there is one. */
  function DigitsOf(t: string): string {
    if |t| > 0 && (t[0] == '-' || t[0] == '+') then t[1..] else t
  }

  function NumeralValue(t: string): int
    requires AllDigits(DigitsOf(t))
  {
    if |t| > 0 && t[0] == '-' then -(DigitsValue(DigitsOf(t)) as int) else DigitsValue(DigitsOf(t))
  }

  /** An optional sign, at least one decimal digit, and a value that fits a `Long`. */
  predicate IsLongNumeral(t: string) {
    && |DigitsOf(t)| > 0
    && AllDigits(DigitsOf(t))
    && LONG_MIN <= NumeralValue(t) <= LONG_MAX
  }

  /** `String.toLongOrNull()`. */
  function ParseLong(t: string): (r: Option<Long>)
    ensures r.Some? <==> IsLongNumeral(t)
    ensures r.Some? ==> r.value == NumeralValue(t)
    ensures r.Some? ==> |t| > 0 && ',' !in t
  {
    if |t| == 0 then None
    else if t[0] < '0' then
      if |t| == 1 then None
      else if t[0] == '-' then ParseMagnitude(t[1..], true)
      else if t[0] == '+' then ParseMagnitude(t[1..], false)
      else None
    else ParseMagnitude(t, false)
  }

  function ParseMagnitude(digits: string, negative: bool): (r: Option<Long>)
    ensures r.Some? ==> AllDigits(digits)
  {
    if !AllDigits(digits) then None
    else
      var v: int := if negative then -(DigitsValue(digits) as int) else DigitsValue(digits);
      if LONG_MIN <= v <= LONG_MAX then Some(v) else None
  }

  /** Kotlin `split(sep)`: every piece between separators, empty ones included. */
  function Split(s: string, sep: char): (parts: seq<string>)
    ensures |parts| > 0
    ensures forall i :: 0 <= i < |parts| ==> sep !in parts[i]
  {
    if |s| == 0 then [""]
    else
      var rest := Split(s[1..], sep);
      if s[0] == sep then [""] + rest
      else [[s[0]] + rest[0]] + rest[1..]
  }

  /** Kotlin `joinToString(sep)` over strings. */
  function Join(parts: seq<string>, sep: char): string
  {
    if |parts| == 0 then ""
    else if |parts| == 1 then parts[0]
    else parts[0] + [sep] + Join(parts[1..], sep)
  }

  /** Reading digits back gives the number that was written. */
  lemma {:induction false} DigitsValueOfDecimal(n: nat)
    ensures DigitsValue(NatToDecimal(n)) == n
  {
    if n >= 10 {
      var s := NatToDecimal(n);
      assert s[..|s| - 1] == NatToDecimal(n / 10);
      DigitsValueOfDecimal(n / 10);
    }
  }

  /** Decimal digits as `toString()` writes them: at least one, and no leading zero unless the number is 0. */
  predicate IsCanonicalDecimal(s: string) {
    |s| > 0 && AllDigits(s) && (s[0] != '0' || |s| == 1)
  }

  /** Writing the value of canonical digits gives those digits back. */
  lemma {:induction false} DecimalOfDigits(s: string)
    requires IsCanonicalDecimal(s)
    ensures NatToDecimal(DigitsValue(s)) == s
  {
    var d := s[|s| - 1] as int - '0' as int;
    if |s| == 1 {
      assert s[..0] == [];
    } else {
      var p := s[..|s| - 1];
      assert p[0] == s[0];
      DecimalOfDigits(p);
      var q := DigitsValue(p);
      assert q > 0;  // `p` starts with a non-zero digit, and 0 is written "0"
      var v := q * 10 + d;
      assert v / 10 == q && v % 10 == d;
      assert NatToDecimal(v) == p + [DigitChar(d)];
      assert p + [s[|s| - 1]] == s;
    }
  }

  /** `toLongOrNull` inverts `Long.toString`. */
  lemma ParseLongOfDecimal(x: Long)
    ensures ParseLong(IntToDecimal(x)) == Some(x)
  {
    var s := IntToDecimal(x);
    if x < 0 {
      var m: nat := -(x as int);
      assert s[1..] == NatToDecimal(m);
      DigitsValueOfDecimal(m);
    } else {
      DigitsValueOfDecimal(x);
    }
  }

  /** A string without the separator splits into itself alone. */
  lemma {:induction false} SplitWithoutSeparator(a: string, sep: char)
    requires sep !in a
    ensures Split(a, sep) == [a]
  {
    if |a| > 0 {
      SplitWithoutSeparator(a[1..], sep);
      assert [a[0]] + a[1..] == a;
    }
  }

  /** A separator between two strings splits them apart, and nothing else. */
  lemma {:induction false} SplitConcat(a: string, sep: char, b: string)
    ensures Split(a + [sep] + b, sep) == Split(a, sep) + Split(b, sep)
  {
    var s := a + [sep] + b;
    if |a| == 0 {
      assert s[1..] == b;
    } else {
      assert s[0] == a[0];
      assert s[1..] == a[1..] + [sep] + b;
      SplitConcat(a[1..], sep, b);
    }
  }

  /** `split` undoes `joinToString` when no piece holds the separator. */
  lemma {:induction false} SplitJoin(parts: seq<string>, sep: char)
    requires |parts| > 0
    requires forall i :: 0 <= i < |parts| ==> sep !in parts[i]
    ensures Split(Join(parts, sep), sep) == parts
  {
    if |parts| == 1 {
      SplitWithoutSeparator(parts[0], sep);
    } else {
      SplitJoin(parts[1..], sep);
      SplitConcat(parts[0], sep, Join(parts[1..], sep));
      SplitWithoutSeparator(parts[0], sep);
      assert [parts[0]] + parts[1..] == parts;
    }
  }

  /** `joinToString` undoes `split`: no character is lost or added. */
  lemma {:induction false} JoinSplit(s: string, sep: char)
    ensures Join(Split(s, sep), sep) == s
  {
    if |s| > 0 {
      var rest := Split(s[1..], sep);
      JoinSplit(s[1..], sep);
      if s[0] == sep {
        assert ([""] + rest)[1..] == rest;
        assert s == [sep] + s[1..];
      } else if |rest| == 1 {
        assert s == [s[0]] + s[1..];
      } else {
        var parts := [[s[0]] + rest[0]] + rest[1..];
        assert parts[1..] == rest[1..];
        assert Join(rest, sep) == rest[0] + [sep] + Join(rest[1..], sep);
        assert s == [s[0]] + s[1..];
      }
    }
  }
}

=== FILE: wrappers.dfy ===
/** Kotlin's nullable values and thrown exceptions, as plain datatypes. */
module Wrappers {

  /** A Kotlin `T?`: `None` plays the part of `null`. */
  datatype Option<+T> = None | Some(value: T) {

    /** The Elvis operator `this ?: default`. */
    function GetOr(default: T): T {
      match this
      case Some(v) => v
      case None => default
    }
  }

  /** The outcome of a computation that may throw. */
  datatype Result<+R, +E> = Success(value: R) | Failure(error: E)
}
